=== FILE: README.md ===
# kiba-extend project template, modelled in Dafny

This project models the job definitions of the kiba-extend project template
(`KeProject`). Each job reads one or more registered files, runs a chain of
transforms over every row, and writes a registered file. The model covers:

- the registry: the entries, their qualified keys, and the populate → transform → freeze life cycle;
- the jobs each creator builds, as data: sources, destination, lookups and transform chain;
- the project's own row logic: the `LocNameReverser` transform and the inline `transform do |row|` blocks;
- what a chain does to a row and to a row stream;
- the backup of the working directory done at load time.

A row is a map from field keys to optional strings. A key is a Ruby symbol,
a Ruby string or `nil`. A missing key and a `nil` value both read as `nil`.
Library transforms (`Merge::MultiRowLookup`, `Delete::Fields`,
`Fingerprint::Add`, …) are step descriptors that carry their parameters.
`Pipeline` gives the ones that work row by row a meaning through a `lib`
parameter, and interprets `FilterRows::FieldEqualTo` itself.
`Clean::EnsureConsistentFields` looks at the whole stream, so it has no
per-row meaning; a chain that holds it is described only up to that step.
Ruby's `String#split`, `blank?`, `reverse`, `downcase` and `delete_prefix` are
defined in `Text`. Raised exceptions are `Result` failures, not preconditions.

Modules, roughly one per source file:

- `Wrappers`, `Rows`, `Seqs`, `Steps`, `Text`: the vocabulary.
- `LocNameReverser`: `transforms/locations/loc_name_reverser.rb`.
- `SourceSystemLocations`, `TargetSystemLocations`: `source_system/locations.rb` and `target_system/locations.rb`.
- `LocationsClean`, `LocationsCleanRev`, `LocationsToJson`: `jobs/locations/*.rb`.
- `TypePrep`, `PrepForCleanup`, `Places`, `PlacesCleanup`: `jobs/type_prep.rb`, `jobs/places/prep_for_cleanup.rb`, `places.rb`, `places_cleanup.rb`.
- `EverythingExploded`: `everything_exploded.rb`.
- `Registry`, `RegistryData`: the registry, and `registry_data.rb`.
- `Pipeline`: running chains over rows.
- `Util`, `Boot`: `util.rb` and the last lines of `ke_project.rb`.

## Model

| member | source | states |
|---|---|---|
| LocNameReverser.Target | lib/ke_project/transforms/locations/loc_name_reverser.rb:24-28 | the reverser writes `:loc_name` exactly when `replace` is set, and `:loc_name_reversed` otherwise |
| LocNameReverser.RowWithReversedValue | lib/ke_project/transforms/locations/loc_name_reverser.rb:40-43 | the target holds a value whose reversal is the given name; the keys grow by the target alone, and every other field is kept |
| LocNameReverser.Process | lib/ke_project/transforms/locations/loc_name_reverser.rb:30-43 | the target field is always present; every other field is untouched; a blank `:loc_name` gives `nil` in the target, and a non-blank one gives its reversal |
| LocNameReverser.NewFieldModeKeepsLocName | lib/ke_project/transforms/locations/loc_name_reverser.rb:30-43 | without `replace`, `:loc_name` keeps its value and the only new key is `:loc_name_reversed` |
| LocNameReverser.ReplaceModeAddsNoField | lib/ke_project/transforms/locations/loc_name_reverser.rb:30-43 | with `replace`, the key set grows by `:loc_name` at most |
| LocNameReverser.ReversedValueSameLength | lib/ke_project/transforms/locations/loc_name_reverser.rb:40-43 | a non-blank name gives a target value of the same length as the name |
| LocNameReverser.ReplaceTwiceRestores | lib/ke_project/transforms/locations/loc_name_reverser.rb:30-43 | two replacing reversers in a row give back the original row when the name is not blank |
| LocNameReverser.NewFieldModeExamples | spec/ke_project/transforms/locations/loc_name_reverser_spec.rb:17-31 | the four example rows ("bat", nil, "", "pop") give "tab", nil, nil, "pop" in `:loc_name_reversed`, with `:loc_name` unchanged |
| LocNameReverser.ReplaceModeExamples | spec/ke_project/transforms/locations/loc_name_reverser_spec.rb:33-47 | the same four rows with `replace` give "tab", nil, nil, "pop" in `:loc_name` |
| Rows.Fetch | lib/ke_project/transforms/locations/loc_name_reverser.rb:31 | `row.fetch(key, nil)`: a present key's value, and `nil` for a missing key |
| Text.Reverse | lib/ke_project/transforms/locations/loc_name_reverser.rb:41 | the result has the input's length, with position i holding the input's character at the mirrored position |
| Text.ReverseInvolution | lib/ke_project/transforms/locations/loc_name_reverser.rb:41 | reversing twice gives the original string |
| Text.ReversePreservesBlank | lib/ke_project/transforms/locations/loc_name_reverser.rb:33-41 | a string is blank exactly when its reversal is |
| Text.Downcase | lib/ke_project/jobs/locations/to_json.rb:31 | the result has the input's length; upper-case ASCII letters become lower case, and every other character is kept |
| Text.DowncaseIdempotent | lib/ke_project/target_system/locations.rb:91 | downcasing twice is downcasing once |
| Text.DowncasePreservesBlank | lib/ke_project/target_system/locations.rb:89-91 | a string is blank exactly when its downcased form is |
| Text.DeletePrefix | lib/ke_project/jobs/type_prep.rb:12 | with the prefix present, the result is what follows it; otherwise the input is unchanged |
| Text.DeletePrefixOfPrepended | lib/ke_project/everything_exploded.rb:125-127 | deleting a prefix that was just prepended gives the original string back |
| Text.RubySplit | lib/ke_project/jobs/places/prep_for_cleanup.rb:19-21 | `split` with a string separator keeps the leading parts of the full split; only trailing empty parts are dropped, and the last kept part is never empty |
| Text.RubySplitJoin | lib/ke_project/jobs/places/prep_for_cleanup.rb:19-21 | when the string does not end with the separator, joining its parts with the separator gives the string back |
| Text.RubySplitEmpty | lib/ke_project/jobs/places/prep_for_cleanup.rb:19 | splitting the empty string gives no parts, so an empty `:place` makes no assignment |
| Text.RubySplitWithoutSeparator | lib/ke_project/jobs/places/prep_for_cleanup.rb:21 | a non-empty string without the separator splits into itself alone |
| SourceSystemLocations.Clean | lib/ke_project/source_system/locations.rb:15-23 | `clean` reads `orig__locations`, writes `auth__loc__clean`, uses no lookup, and no step of its chain reverses a name |
| SourceSystemLocations.CleanReverse | lib/ke_project/source_system/locations.rb:25-33 | `clean_reverse` reads `orig__locations`, writes `auth__loc__clean_rev`, uses no lookup, and ends with a new-field reverser |
| SourceSystemLocations.CleanLogic | lib/ke_project/source_system/locations.rb:36-42 | every chain starts with the rename of `location_id` and the deletion of `updated_date`; only `"reversed"` adds a new-field reverser as a third step |
| SourceSystemLocations.CleanJobsRelation | lib/ke_project/source_system/locations.rb:15-33 | both jobs read `orig__locations`; they write `auth__loc__clean` and `auth__loc__clean_rev`; the reversed chain is the direct chain plus one reverser |
| LocationsClean.Xforms | lib/ke_project/jobs/locations/clean.rb:19-25 | the rename and the deletion shared with `clean_logic`, then a replacing reverser |
| LocationsClean.Job | lib/ke_project/jobs/locations/clean.rb:9-17 | reads `orig__locations`, writes `locations__clean`, with no lookup and the `xforms` chain |
| LocationsClean.XformsExtendDirectChain | lib/ke_project/jobs/locations/clean.rb:9-25 | the job's chain is the direct clean chain plus a replacing reverser, and it reads the same source as `clean` |
| LocationsCleanRev.Xforms | lib/ke_project/jobs/locations/clean_rev.rb:19-25 | the rename and the deletion shared with `clean_logic`, then a new-field reverser |
| LocationsCleanRev.Job | lib/ke_project/jobs/locations/clean_rev.rb:9-17 | reads `orig__locations`, writes `locations__clean_rev`, with no lookup and the `xforms` chain |
| LocationsCleanRev.XformsMatchReversedLogic | lib/ke_project/jobs/locations/clean_rev.rb:19-25 | the chain equals `clean_logic("reversed")`; it differs from `Jobs::Locations::Clean` only in the reverser's `replace` flag |
| LocationsToJson.Xforms | lib/ke_project/jobs/locations/to_json.rb:19-35 | two steps: the `data_source` constant, then the offsite-or-downcase block |
| LocationsToJson.Job | lib/ke_project/jobs/locations/to_json.rb:9-17 | reads `locations__clean`, writes `locations__to_json`, with no lookup and the `xforms` chain |
| LocationsToJson.SkipOffsiteElseDowncase | lib/ke_project/jobs/locations/to_json.rb:24-33 | an offsite row passes unchanged; any other row fails on a `nil` name, and otherwise gets its name downcased |
| LocationsToJson.ReadsCleanOutput | lib/ke_project/jobs/locations/to_json.rb:9-24 | the job reads the key `Jobs::Locations::Clean` writes; `data_source` is stamped first, and the inline block runs second |
| LocationsToJson.BlockTouchesOnlyLocName | lib/ke_project/jobs/locations/to_json.rb:24-33 | the block changes no field but `:loc_name`, and adds no key |
| TargetSystemLocations.ForImportConfig | lib/ke_project/target_system/locations.rb:35-41 | reads `auth__loc__clean`, writes `locations`, and declares `auth__loc__clean_rev` as its one lookup |
| TargetSystemLocations.ForImportLogic | lib/ke_project/target_system/locations.rb:47-64 | a merge from `auth__loc__clean_rev` keyed on `:location_id` that copies `:loc_name_reversed` into `:reversed_location` and stamps `update_date` with today; then that key column is deleted |
| TargetSystemLocations.ForImport | lib/ke_project/target_system/locations.rb:15-17 | the import job pairs its config with its logic, and its merge reads a lookup its own files declare |
| TargetSystemLocations.ForEndpointConfig | lib/ke_project/target_system/locations.rb:73-78 | reads what the import config writes, writes `auth__loc__json`, with no lookup |
| TargetSystemLocations.ForEndpointLogic | lib/ke_project/target_system/locations.rb:80-95 | two steps: the `data_source` constant, then the `:reversed_location` block |
| TargetSystemLocations.ForEndpoint | lib/ke_project/target_system/locations.rb:67-69 | the endpoint job pairs its config with its logic, and on any day it reads what `for_import` writes |
| TargetSystemLocations.DowncaseReversedLocation | lib/ke_project/target_system/locations.rb:85-93 | a blank `:reversed_location` leaves the row as it is; otherwise it is downcased; no other field or key changes |
| TargetSystemLocations.DowncaseReversedLocationIdempotent | lib/ke_project/target_system/locations.rb:85-93 | applying the block twice is applying it once |
| TargetSystemLocations.ImportFeedsEndpoint | lib/ke_project/target_system/locations.rb:35-78 | the endpoint job reads what the import job writes; the import merge reads a lookup the config declares and copies the new-field reverser's `:loc_name_reversed` into `:reversed_location`; its key column is deleted next |
| TypePrep.DestinationKey | lib/ke_project/jobs/type_prep.rb:12 | the destination always starts with `type__`; after that prefix comes the source with one leading `orig__` removed |
| TypePrep.StripTypePrefix | lib/ke_project/jobs/type_prep.rb:12 | removing `type__` from the destination is removing `orig__` from the source |
| TypePrep.DestinationKeyExamples | lib/ke_project/jobs/type_prep.rb:12 | `foo` goes to `type__foo`, `orig__objects` to `type__objects`, and only one `orig__` is removed |
| TypePrep.Xforms | lib/ke_project/jobs/type_prep.rb:18-22 | the segment is one filter that rejects the rows whose value field reads `'undefined'` |
| TypePrep.Job | lib/ke_project/jobs/type_prep.rb:8-16 | the job reads its one given source, writes `DestinationKey(source)` (a `type__` key), declares no lookup, and its chain is the `'undefined'` reject filter on the value field |
| PlacesCleanup.FingerprintFields | lib/ke_project/places_cleanup.rb:14-16 | the delegated default: `:place`, then `:country`, `:state`, `:county` and `:city` |
| PlacesCleanup.WorksheetFieldOrder | lib/ke_project/places_cleanup.rb:22-24 | Ruby `Array#-`: the result is the fingerprint fields in order; every ignored field is removed, and every other field is kept as many times as it occurs |
| Seqs.FilterCounts | lib/ke_project/places_cleanup.rb:22-24 | selection keeps each kept element exactly as many times as it occurs, and no other element |
| PlacesCleanup.WorksheetFieldOrderIdempotent | lib/ke_project/places_cleanup.rb:22-24 | subtracting the ignore list a second time changes nothing |
| PlacesCleanup.DefaultWorksheetFieldOrder | lib/ke_project/places_cleanup.rb:14-24 | with the default settings, the worksheet lists country, state, county and city: the `Places` fingerprint fields without `:place` |
| PrepForCleanup.PairOf | lib/ke_project/jobs/places/prep_for_cleanup.rb:21-22 | the key a segment writes is a string or `nil`, never a symbol |
| PrepForCleanup.ApplyPairs | lib/ke_project/jobs/places/prep_for_cleanup.rb:20-23 | the assignments add exactly the keys the pairs name, and no other key |
| PrepForCleanup.PairsOf | lib/ke_project/jobs/places/prep_for_cleanup.rb:19-22 | one pair for each `\|\|\|` segment, in order |
| PrepForCleanup.ParsePlace | lib/ke_project/jobs/places/prep_for_cleanup.rb:18-25 | the block raises exactly when `:place` is `nil` or missing; otherwise it applies the segments' pairs in order |
| PrepForCleanup.ApplyPairsUntouched | lib/ke_project/jobs/places/prep_for_cleanup.rb:20-23 | a key that no pair names keeps its presence and its value |
| PrepForCleanup.ApplyPairsLastWins | lib/ke_project/jobs/places/prep_for_cleanup.rb:20-23 | a key ends with the value of the last pair that names it |
| PrepForCleanup.ParsePlaceKeepsSymbolKeys | lib/ke_project/jobs/places/prep_for_cleanup.rb:18-25 | no symbol key is added, removed or changed by parsing, `:place` included |
| PrepForCleanup.ParsePlaceEmpty | lib/ke_project/jobs/places/prep_for_cleanup.rb:19 | an empty `:place` leaves the row unchanged |
| PrepForCleanup.PairOfRoundTrip | lib/ke_project/jobs/places/prep_for_cleanup.rb:21-22 | `"key: value"` reads back as (key, value) when the key has no colon and the value is non-empty without `": "` |
| PrepForCleanup.PairOfIgnoresRest | lib/ke_project/jobs/places/prep_for_cleanup.rb:21-22 | for the same keys and values, `"key: value: anything"` also reads as (key, value): parts after the second are ignored |
| PrepForCleanup.PairOfExamples | lib/ke_project/jobs/places/prep_for_cleanup.rb:21-22 | in `"a: b: c"` the third part is ignored; an empty segment assigns `row[nil] = nil` |
| PrepForCleanup.PairOfWithoutSeparator | lib/ke_project/jobs/places/prep_for_cleanup.rb:21-22 | a segment without `": "` sets its own text as a key, with value `nil` |
| PrepForCleanup.Xforms | lib/ke_project/jobs/places/prep_for_cleanup.rb:16-33 | four steps: the parser first and as the only inline block, then `EnsureConsistentFields`, the fingerprint, and the deletion of `:place` |
| PrepForCleanup.Job | lib/ke_project/jobs/places/prep_for_cleanup.rb:6-14 | reads `orig__places`, writes `places__prep_for_cleanup`, with no lookup and the `xforms` chain |
| PrepForCleanup.JobShape | lib/ke_project/jobs/places/prep_for_cleanup.rb:6-33 | the job reads `orig__places` and writes the cleanup's base job key; the parser runs first; the fingerprint covers the cleanup's fingerprint fields; `:place` is deleted by the last step and by no earlier one |
| EverythingExploded.Source | lib/ke_project/everything_exploded.rb:54-60 | the source is `pre_prepped_objects` exactly when that key is registered, and `orig__objects` otherwise |
| EverythingExploded.TableKeys | lib/ke_project/everything_exploded.rb:62-69 | one `type__<table>` key per type table, in order |
| EverythingExploded.Lookups | lib/ke_project/everything_exploded.rb:62-69 | the lookups are the registered type-table keys: each one is registered and comes from a table; every registered one is kept, in table order |
| EverythingExploded.ValField | lib/ke_project/everything_exploded.rb:128 | `type_tables[table]` is `nil` exactly when no table has that name; otherwise it is that table's value field |
| EverythingExploded.ValFieldOfTable | lib/ke_project/everything_exploded.rb:128 | with distinct table names, each table's own name finds its own value field |
| EverythingExploded.LookupTableRoundTrip | lib/ke_project/everything_exploded.rb:124-129 | removing `type__` from a lookup finds a table again, so the value field is never `nil` |
| EverythingExploded.TableOf | lib/ke_project/everything_exploded.rb:125-127 | a lookup key with the `type__` prefix names the table after it, so `TypeKey(table)` gives the key back; a key without the prefix names itself |
| EverythingExploded.IdFieldOfValField | lib/ke_project/everything_exploded.rb:129 | the id field is a symbol ending in `id`, and dropping that suffix gives the value field's name back (the empty name for `nil`) |
| EverythingExploded.PerLookup | lib/ke_project/everything_exploded.rb:124-134 | each lookup gives a merge from that lookup, keyed on the value field's `id` column, that maps the value field onto itself; the deletion of that key column follows |
| EverythingExploded.LookupSteps | lib/ke_project/everything_exploded.rb:124-135 | the loop contributes two steps per lookup, in lookup order |
| EverythingExploded.LookupStepsMergeAtEven | lib/ke_project/everything_exploded.rb:124-135 | in the loop's steps, a step is a merge exactly when its position is even; the odd positions hold the deletions |
| EverythingExploded.IsOddAlternates | lib/ke_project/everything_exploded.rb:81-83 | `today_is_odd?` alternates from one day to the next, and `2k + 1` is odd while `2k` is not |
| EverythingExploded.ConstantMerge | lib/ke_project/everything_exploded.rb:85-89 | the segment is the one `data_source` stamp, the same step that `for_endpoint_logic` starts with |
| EverythingExploded.LookupSegment | lib/ke_project/everything_exploded.rb:105-136 | the first step is the constant merge of `update_date`, `last_week` and `prev_date` with today, last week and yesterday; the rest are the two steps per lookup, in lookup order |
| EverythingExploded.TransformationDefinitionAsWritten | lib/ke_project/everything_exploded.rb:102-141 | as written, a chain exists exactly on odd days, and it holds neither a lookup merge nor the constant merge of the dates |
| EverythingExploded.AsWrittenDropsLookupSegment | lib/ke_project/everything_exploded.rb:102-141 | as written, the method returns `nil` on even days and only the `data_source` constant on odd days; its chain never holds a lookup |
| EverythingExploded.TransformationDefinition | lib/ke_project/everything_exploded.rb:102-141 | the composed chain is the lookup segment, plus the `data_source` constant on odd days |
| EverythingExploded.CorrectedChainMergesOnlyLookups | lib/ke_project/everything_exploded.rb:102-141 | in the composed chain, every merge sits at a lookup's slot `1 + 2i`; the constants are no merges |
| EverythingExploded.IAmTheCreatorMethod | lib/ke_project/everything_exploded.rb:11-16 | the corrected job (see Findings): its files are `hash_setting_up_dependencies`. Its chain is the lookup segment (the three date constants, then the lookups' steps), plus the `data_source` stamp on odd days. It merges the i-th declared lookup at slot `1 + 2i` and merges nothing anywhere else, so it merges exactly the declared lookups, in order |
| EverythingExploded.IAmTheCreatorMethodAsWritten | lib/ke_project/everything_exploded.rb:11-16 | as written, the job has a chain only on odd days; its files still declare every registered lookup, but its chain merges none |
| EverythingExploded.AsWrittenJobMergesNoLookup | lib/ke_project/everything_exploded.rb:11-16 | whenever a type-table lookup is registered, the job as written differs from the corrected job |
| EverythingExploded.HashSettingUpDependencies | lib/ke_project/everything_exploded.rb:45-51 | the one conditional source, the `prep_objects` destination, and lookups that are all registered and include every registered type-table key |
| EverythingExploded.SomeOtherJob | lib/ke_project/everything_exploded.rb:150-152 | the job built from `foo`'s files and `bar`'s chain |
| EverythingExploded.Foo | lib/ke_project/everything_exploded.rb:156-161 | the source `i_do_not_exist`, the destination `neither_do_i`, and no lookup |
| EverythingExploded.Bar | lib/ke_project/everything_exploded.rb:163-180 | two steps: the `data_source` constant, then the `:reversed_location` block |
| EverythingExploded.BarIsEndpointLogic | lib/ke_project/everything_exploded.rb:163-180 | `bar` is `for_endpoint_logic` step for step |
| Pipeline.ApplyStep | lib/ke_project/jobs/type_prep.rb:20 | the reverser always keeps the row; an inline block never filters; `FieldEqualTo` with `:reject` drops exactly the rows whose field equals the value and keeps the rest unchanged |
| Pipeline.ApplyBlock | lib/ke_project/jobs/locations/to_json.rb:24-33 | `next row` never filters a row out; a raised error is a failure of that block |
| Pipeline.RunRow | lib/ke_project/jobs/locations/to_json.rb:19-35 | the empty chain writes the row unchanged; a row can be dropped only by the row filter or a library transform, and can fail only in a block or a library transform |
| Pipeline.RunRowAppend | lib/ke_project/source_system/locations.rb:36-42 | running two chains in turn is running their concatenation |
| Pipeline.StopsAtFirstFailure | lib/ke_project/source_system/locations.rb:36-42 | once a chain drops a row or fails on it, steps after the chain make no difference |
| Pipeline.RunRows | lib/ke_project/jobs/type_prep.rb:18-22 | a job writes no more rows than it reads |
| Pipeline.ReverserNeverDrops | lib/ke_project/transforms/locations/loc_name_reverser.rb:30-36 | a reverser writes every row it reads, each one processed, in order |
| Pipeline.CleanReverseIsCleanThenReverser | lib/ke_project/source_system/locations.rb:15-42 | on every row, `clean_reverse` is `clean` followed by a new-field reverser |
| Pipeline.CleanAddsNoReversedField | lib/ke_project/jobs/locations/clean.rb:19-25 | after the direct steps, the job adds only `:loc_name`, so it never introduces `:loc_name_reversed` |
| Pipeline.CleanRevKeepsLocName | lib/ke_project/jobs/locations/clean_rev.rb:19-25 | the job always writes `:loc_name_reversed` and keeps `:loc_name` as the earlier steps left it |
| Pipeline.TypePrepRejectsUndefined | lib/ke_project/jobs/type_prep.rb:18-22 | a row is dropped exactly when its value field is `'undefined'`; every other row passes unchanged |
| Pipeline.ToJsonFailsOnlyOnMissingName | lib/ke_project/jobs/locations/to_json.rb:19-35 | the job fails on a row exactly when it is not offsite and has no `:loc_name`; otherwise it writes the block's result |
| Pipeline.ForEndpointKeepsRows | lib/ke_project/target_system/locations.rb:80-95 | the endpoint chain keeps every row, and after the stamp only `:reversed_location` can change |
| Pipeline.PrepForCleanupFailsWithoutPlace | lib/ke_project/jobs/places/prep_for_cleanup.rb:16-25 | a row without `:place` fails the job at the first step |
| Registry.QualifiedKey | lib/ke_project/registry_data.rb:20-21 | without namespaces the key is the bare name; otherwise it starts with the outermost namespace followed by `__` |
| Registry.QualifiedKeyNested | lib/ke_project/registry_data.rb:20-21 | one more namespace level: the key is the outer namespaces' key for that level, then `__`, then the name |
| Registry.QualifiedKeyLevels | lib/ke_project/registry_data.rb:50-52 | two namespace levels give `a__b__name` |
| Registry.Register | lib/ke_project/registry_data.rb:32-37 | one `registry.register :key, {...}` call (this one and those at lines 42, 52, 58 and 70): registering fails exactly when the registry is frozen or the key is taken; otherwise it adds exactly that entry |
| Registry.RegisterAll | lib/ke_project/registry_data.rb:29-79 | no registrations leave the registry as it is; a frozen registry refuses the first one; a success keeps the phase and every old key; a failure is the frozen refusal or a duplicate of one of the registered keys |
| Registry.RegisterAllSucceeds | lib/ke_project/registry_data.rb:29-79 | a sequence of registrations succeeds exactly when its keys are pairwise distinct and none is already taken |
| Registry.RegisterAllContents | lib/ke_project/registry_data.rb:29-79 | after successful registrations, the registry holds the old entries plus each registration under its key |
| Registry.RegisterAllFromEmpty | lib/ke_project/registry_data.rb:29-79 | distinct registrations into an empty registry give exactly the expected map |
| Registry.Transform | lib/ke_project/registry_data.rb:10 | `transform` keeps every entry |
| Registry.Freeze | lib/ke_project/registry_data.rb:11 | `freeze` keeps every entry and makes the registry frozen |
| Registry.FrozenIsReadOnly | lib/ke_project/registry_data.rb:11 | a frozen registry refuses every further registration and stays unchanged |
| Registry.RankedIsAcyclic | lib/ke_project/registry_data.rb:29-79 | when every job reads only keys of lower rank, no dependency path returns to its start |
| RegistryData.Register | lib/ke_project/registry_data.rb:8-12 | a successful `register` ends frozen, holding exactly the registered keys, each with the entry registered under it |
| RegistryData.RegisteredKeys | lib/ke_project/registry_data.rb:32-76 | the five registrations yield `locations`, `orig__locations`, `auth__loc__clean`, `auth__loc__clean_rev` and `auth__loc__json` |
| RegistryData.KeysDistinct | lib/ke_project/registry_data.rb:32-76 | the five keys are pairwise distinct |
| RegistryData.RegisterSucceeds | lib/ke_project/registry_data.rb:8-12 | `register` succeeds and leaves a frozen registry holding exactly the five entries |
| RegistryData.Registrations | lib/ke_project/registry_data.rb:29-79 | five `register` calls; only the `orig` entry is supplied, an entry has no creator exactly when it is supplied, and only `clean_rev` has `lookup_on` |
| RegistryData.Entries | lib/ke_project/registry_data.rb:29-79 | the populated map: supplied exactly when there is no creator, and only `orig__locations` is supplied. Only `auth__loc__clean_rev` has `lookup_on`, and only `auth__loc__json` writes a JSON array |
| RegistryData.Jobs | lib/ke_project/registry_data.rb:32-76 | each job writes the key it is registered under, and only entries with a creator have a job |
| RegistryData.JobsAreTheCreators | lib/ke_project/registry_data.rb:32-76 | an entry has a job exactly when it has a creator, and that job is the one its creator builds |
| RegistryData.RegistryConsistent | lib/ke_project/registry_data.rb:32-76 | supplied means no creator; each job writes its own key; every key read is registered; every lookup declares `lookup_on` |
| RegistryData.LookupOnMatchesKeycolumn | lib/ke_project/registry_data.rb:58-64 | only `auth__loc__clean_rev` declares `lookup_on`; it is the only lookup used, and its column is the merge's key column |
| RegistryData.DependencyGraphAcyclic | lib/ke_project/registry_data.rb:32-76 | no job depends on itself, even indirectly, and `orig__locations` is the only entry that no job writes |
| RegistryData.DependencyGraphRanked | lib/ke_project/registry_data.rb:32-76 | without any path: every job reads only keys ranked below its own, and `orig__locations` is the only entry that no job writes |
| RegistryData.WorkingHoldsOnlyIntermediates | lib/ke_project/registry_data.rb:52-64 | only the two cleaned location files live under `working`, so a backup never moves a supplied, import or endpoint file |
| RegistryData.UnregisteredKeys | lib/ke_project/everything_exploded.rb:150-161 | none of these keys is registered: the ones `foo` names, the destinations of the three `Jobs::Locations` jobs, and the source of `ToJson` |
| Util.Digit | lib/ke_project/util.rb:9 | a digit character with the given value |
| Util.TwoDigits | lib/ke_project/util.rb:9 | a zero-padded two-digit field that reads back as the number |
| Util.Timestamp | lib/ke_project/util.rb:9 | the `%y-%m-%d_%H-%M` shape: 14 characters, with separators at 2, 5, 8 and 11 and digits elsewhere |
| Util.ParseTimestamp | lib/ke_project/util.rb:9 | a string reads as a minute exactly when it has the timestamp's shape: 14 characters, separators at 2, 5, 8 and 11, digits elsewhere; each field reads as a number from 0 to 99 |
| Util.TimestampRoundTrip | lib/ke_project/util.rb:9 | a timestamp reads back as the minute it was written for |
| Util.TimestampMinuteGranularity | lib/ke_project/util.rb:9 | two clocks give the same timestamp exactly when they fall in the same minute |
| Util.BackupName | lib/ke_project/util.rb:16 | the backup name starts with the stamp and `_`, and what follows is the file's name |
| Util.BackupNameInjective | lib/ke_project/util.rb:16 | different files get different backup names, and removing the stamp prefix gives the file name back |
| Util.MoveFails | lib/ke_project/util.rb:17 | a move onto a free name never fails, nor does a file onto a file; a failure always involves a directory, either the node moved or the one already at `<name>/<f>` |
| Util.MoveError | lib/ke_project/util.rb:17 | a refused move raises EEXIST when the path it moves to is a directory, and ENOTDIR when a directory would replace a file |
| Util.Moved | lib/ke_project/util.rb:17 | a move that does not raise puts the node into a directory already at the stamped name, and otherwise at that name, replacing a file only with a file |
| Util.BackupNameCarriesMinute | lib/ke_project/util.rb:9-16 | a backup name is the clock's timestamp, `_`, then the file's name; its first 14 characters read back as the clock's minute |
| Util.MoveWorkingFiles | lib/ke_project/util.rb:10-19 | for a given stamp: raises exactly when `backup` is a file, `working` is not a directory, or some move raises, and then with that move's error; otherwise `working` is emptied, each of its children is moved to its stamped name as `FileUtils.mv` places it, other backups are kept, and nothing else changes |
| Util.BackupWorkingFiles | lib/ke_project/util.rb:8-20 | with the stamp `Timestamp(now)`: raises exactly when the backup cannot run for that stamp, and then with the error of a refused move. Otherwise `working` is emptied, and each child is moved as `FileUtils.mv` places it to a name whose first 14 characters read back as the minute of `now`. Other backups are kept and nothing else changes |
| Boot.Load | lib/ke_project.rb:87-89 | in `:job` mode, the backup, stamped with `Timestamp(now)`, happens before registration, and every working file then has its stamped name in `backup`; a backup that raises stops the load; in `:none` mode, files are untouched; the populated registry is the one `register` builds |

## Left out

- The kiba-extend engine: its sources and destinations, CSV and JSON reading and writing, and its library transforms. The model keeps `Merge::*`, `Delete::Fields`, `Rename::Field`, `Clean::EnsureConsistentFields` and `Fingerprint::Add` as descriptors. `Pipeline` takes the per-row meaning of the row-by-row ones as a parameter. Their code is not part of this model.
- `KeProject.type_tables` with string keys: `EverythingExploded.ValField` finds a table by name, which assumes the hash's keys are symbols, as `table.to_sym` expects. With string keys every value field would read `nil`.
- `Clean::EnsureConsistentFields` pads every row to the fields of all rows, so its meaning depends on the whole stream and cannot be given per row. `Pipeline.RunRow` over `PrepForCleanup.Xforms` therefore says something only about the parser, the step before it (`Pipeline.PrepForCleanupFailsWithoutPlace` is about that step alone).
- `Kiba::Extend::Registry`: `register`, `namespace`, `transform` and `freeze` are modelled from how `registry_data.rb` uses them. A duplicate key or a frozen registry is refused; the library's exact exception is not modelled.
- `Dry::Configurable` settings become constants holding their defaults. `KeProject::Places.fingerprint_fields` is the single constant `Places.FingerprintFields`.
- The clock becomes parameters: `Date.today`, `Time.now`, last week and yesterday. The file system becomes a map from names to nodes.
- Text.Downcase: ASCII letters only; Ruby's full Unicode case mapping is not modelled.
- Text.RubySplit: only splitting on a non-empty string separator; the `nil`, whitespace and regexp forms of `split` are not used by the core.
- Util.BackupWorkingFiles: `Time.now` is the parameter `now`, a valid clock reading; the stamp is computed from it. The moves follow `FileUtils.mv` without `force:`: into a directory already at the stamped name, replacing a file with a file, refusing a directory at the target path (EEXIST) and a directory onto a file (ENOTDIR). What a failed backup leaves behind is not modelled: the `backup` directory made before a later failure, and the moves done before the one that raised, which depend on `Dir.each_child`'s order. The copy fallback `File.rename` takes across devices, the "same file" check, and the process-wide `cd` are not modelled either.
- Boot.Load: only the `:job` and `:none` backup modes. The rest of `ke_project.rb` (Zeitwerk loading, the other settings) is not modelled.
- `binding`, `send` and `bind.receiver` in `everything_exploded.rb` only find methods; the model calls the functions directly.
- `Jobs::Locations::ToJson` calls `downcase` on a `nil` `:loc_name`. The model makes this a failure result of the job rather than a precondition on the row.
- Hash ordering is kept where it matters (type tables, field order, chain order). Entry hashes and registries are maps.
- `spec/spec_helper.rb` only configures the test runner.

## Findings

| source | as written | input that shows it | evidently intended | confidence | as-written member | corrected member |
|---|---|---|---|---|---|---|
| lib/ke_project/everything_exploded.rb:102-141 | the method's last expression, `constant_merge if today_is_odd?`, is its return value. The `Kiba.job_segment` with the constants and lookups is built and then thrown away | any even day of the month, e.g. the 2nd: the method returns `nil`. On odd days it returns only the `data_source` constant, with no lookups | the comment at line 138 says the job is composed of several segments: the lookup segment, plus the constant merge on odd days | medium, not executed | EverythingExploded.AsWrittenDropsLookupSegment | EverythingExploded.TransformationDefinition |

=== FILE: everything_exploded.dfy ===
/**
 * `KeProject::EverythingExploded`: a job whose source, lookups and chain are
 * computed from the registry's key set and the project's type tables, plus an
 * unregistered job that names keys nobody registered.
 */
module EverythingExploded {
  import opened Wrappers
  import opened Rows
  import opened Steps
  import Text
  import Seqs
  import TargetSystemLocations

  const PrePreppedObjects := "pre_prepped_objects"
  const OrigObjects := "orig__objects"
  const TypePrefix := "type__"

  /** `source`: the pre-prepped objects when that key is registered, the supplied objects otherwise. */
  function Source(registered: set<string>): (s: string)
    ensures s == PrePreppedObjects <==> PrePreppedObjects in registered
    ensures s != PrePreppedObjects ==> s == OrigObjects
  {
    if PrePreppedObjects in registered then PrePreppedObjects else OrigObjects
  }

  /**
   * `KeProject.type_tables`: table name to value field, in the hash's order.
   * A Ruby hash never repeats a key, which `DistinctTables` states. The model
   * takes the hash's keys to be symbols, so `type_tables[table.to_sym]` finds a
   * table by its name; with string keys every lookup would read `nil`.
   */
  type TypeTables = seq<(string, string)>

  predicate DistinctTables(tt: TypeTables) {
    forall i, j :: 0 <= i < j < |tt| ==> tt[i].0 != tt[j].0
  }

  function TypeKey(table: string): string {
    TypePrefix + table
  }

  /** `type_tables.keys.map { |tt| "type__#{tt}".to_sym }`. */
  function TableKeys(tt: TypeTables): (keys: seq<string>)
    ensures |keys| == |tt|
    ensures forall i :: 0 <= i < |tt| ==> keys[i] == TypeKey(tt[i].0)
  {
    seq(|tt|, i requires 0 <= i < |tt| => TypeKey(tt[i].0))
  }

  /**
   * `lookups`: the type-table keys that are registered, in type-table order.
   * Every lookup is registered and comes from a type table, every registered
   * type-table key is kept, and there are at most as many as type tables.
   */
  function Lookups(tt: TypeTables, registered: set<string>): (r: seq<string>)
    ensures |r| <= |tt|
    ensures forall i :: 0 <= i < |r| ==> r[i] in registered
    ensures forall i :: 0 <= i < |r| ==> exists j :: 0 <= j < |tt| && r[i] == TypeKey(tt[j].0)
    ensures forall j :: 0 <= j < |tt| && TypeKey(tt[j].0) in registered ==> TypeKey(tt[j].0) in r
    ensures Seqs.IsSubsequence(r, TableKeys(tt))
  {
    var keys := TableKeys(tt);
    var r := Seqs.Filter(keys, k => k in registered);
    assert forall i :: 0 <= i < |r| ==> r[i] in keys;
    r
  }

  /** `lkup.to_s.delete_prefix('type__').to_sym`: the table a lookup key names; a key without the prefix names itself. */
  function TableOf(lookup: string): (table: string)
    ensures Text.StartsWith(lookup, TypePrefix) ==> TypeKey(table) == lookup
    ensures !Text.StartsWith(lookup, TypePrefix) ==> table == lookup
  {
    Text.DeletePrefix(lookup, TypePrefix)
  }

  /** `KeProject.type_tables[table]`: the table's value field, `nil` when there is no such table. */
  function ValField(tt: TypeTables, table: string): (f: FieldKey)
    ensures f == NilKey <==> forall i :: 0 <= i < |tt| ==> tt[i].0 != table
    ensures f != NilKey ==> exists i :: 0 <= i < |tt| && tt[i].0 == table && f == Sym(tt[i].1)
  {
    if tt == [] then NilKey
    else if tt[0].0 == table then Sym(tt[0].1)
    else ValField(tt[1..], table)
  }

  /**
   * `"#{valfield}id".to_sym`; `nil` interpolates as the empty string. The value
   * fields of `TypeTables` are symbols, so `ValField` never gives a `Str`; that
   * case interpolates a string key the same way.
   */
  function IdField(valfield: FieldKey): FieldKey {
    match valfield
    case Sym(n) => Sym(n + "id")
    case Str(t) => Sym(t + "id")
    case NilKey => Sym("id")
  }

  /** The id field is a symbol ending in `id`; dropping that suffix gives back the value field's name. */
  lemma IdFieldOfValField(valfield: FieldKey)
    ensures IdField(valfield).Sym? && Text.EndsWith(IdField(valfield).name, "id")
    ensures var n := IdField(valfield).name;
      && (valfield.Sym? ==> n[..|n| - 2] == valfield.name)
      && (valfield.Str? ==> n[..|n| - 2] == valfield.text)
      && (valfield.NilKey? ==> n == "id")
  {
  }

  /** The two steps one lookup contributes: the merge keyed on the id field, then its deletion. */
  function PerLookup(lookup: string, tt: TypeTables): (steps: seq<Step>)
    ensures |steps| == 2
    ensures steps[0].MultiRowLookup? && steps[0].lookup == lookup
    ensures steps[0].fieldmap == [(ValField(tt, TableOf(lookup)), ValField(tt, TableOf(lookup)))]
    ensures steps[0].keycolumn == IdField(steps[0].fieldmap[0].0)
    ensures steps[1] == DeleteFields([steps[0].keycolumn])
  {
    var valfield := ValField(tt, TableOf(lookup));
    var idfield := IdField(valfield);
    [MultiRowLookup(lookup, idfield, [(valfield, valfield)], []), DeleteFields([idfield])]
  }

  /** The `job_def.lookups.each` loop: two steps per lookup, in lookup order. */
  function LookupSteps(lookups: seq<string>, tt: TypeTables): (steps: seq<Step>)
    ensures |steps| == 2 * |lookups|
    ensures forall i :: 0 <= i < |lookups| ==>
      steps[2 * i] == PerLookup(lookups[i], tt)[0] && steps[2 * i + 1] == PerLookup(lookups[i], tt)[1]
  {
    if lookups == [] then []
    else
      var rest := LookupSteps(lookups[1..], tt);
      var steps := PerLookup(lookups[0], tt) + rest;
      assert forall i :: 0 <= i < |lookups| ==>
        steps[2 * i] == PerLookup(lookups[i], tt)[0] && steps[2 * i + 1] == PerLookup(lookups[i], tt)[1] by {
        forall i | 1 <= i < |lookups|
          ensures steps[2 * i] == PerLookup(lookups[i], tt)[0] && steps[2 * i + 1] == PerLookup(lookups[i], tt)[1]
        {
          var j := i - 1;
          assert lookups[1..][j] == lookups[i];
          assert steps[2 * i] == rest[2 * j] && steps[2 * i + 1] == rest[2 * j + 1];
        }
      }
      steps
  }

  /** In the loop's steps the merges sit exactly at the even positions; the odd ones are deletions. */
  lemma {:induction false} LookupStepsMergeAtEven(lookups: seq<string>, tt: TypeTables)
    ensures forall i :: 0 <= i < |LookupSteps(lookups, tt)| ==>
      (LookupSteps(lookups, tt)[i].MultiRowLookup? <==> i % 2 == 0)
  {
    var steps := LookupSteps(lookups, tt);
    forall i | 0 <= i < |steps| ensures steps[i].MultiRowLookup? <==> i % 2 == 0 {
      var k := i / 2;
      assert 0 <= k < |lookups|;
      if i % 2 == 0 {
        assert steps[i] == PerLookup(lookups[k], tt)[0];
      } else {
        assert steps[i] == PerLookup(lookups[k], tt)[1];
      }
    }
  }

  /** With distinct table names, looking a table up finds its own value field. */
  lemma {:induction false} ValFieldOfTable(tt: TypeTables, j: int)
    requires DistinctTables(tt)
    requires 0 <= j < |tt|
    ensures ValField(tt, tt[j].0) == Sym(tt[j].1)
    decreases |tt|
  {
    if j > 0 {
      assert tt[0].0 != tt[j].0;
      assert DistinctTables(tt[1..]) by {
        forall a, b | 0 <= a < b < |tt[1..]| ensures tt[1..][a].0 != tt[1..][b].0 {
          assert tt[1..][a] == tt[a + 1] && tt[1..][b] == tt[b + 1];
        }
      }
      ValFieldOfTable(tt[1..], j - 1);
      assert tt[1..][j - 1] == tt[j];
    }
  }

  /** A registered type-table lookup finds its table again, so its value field is never `nil`. */
  lemma LookupTableRoundTrip(tt: TypeTables, registered: set<string>, k: string)
    requires DistinctTables(tt)
    requires k in Lookups(tt, registered)
    ensures exists j :: 0 <= j < |tt| && TableOf(k) == tt[j].0 && ValField(tt, TableOf(k)) == Sym(tt[j].1)
  {
    var r := Lookups(tt, registered);
    var i :| 0 <= i < |r| && r[i] == k;
    var j :| 0 <= j < |tt| && k == TypeKey(tt[j].0);
    Text.DeletePrefixOfPrepended(TypePrefix, tt[j].0);
    ValFieldOfTable(tt, j);
  }

  /** The clock-derived values: `Date.today`, seven days earlier, one day earlier, and the day of the month. */
  datatype Dates = Dates(today: string, lastWeek: string, yesterday: string, dayOfMonth: int)

  /** `Integer#odd?`. */
  function IsOdd(day: int): bool {
    day % 2 == 1
  }

  /** Odd and even days alternate, negative numbers included, and `2k + 1` is odd. */
  lemma IsOddAlternates(day: int, k: int)
    ensures IsOdd(day) != IsOdd(day + 1)
    ensures IsOdd(2 * k + 1) && !IsOdd(2 * k)
  {
  }

  /** The first `Kiba.job_segment` of `transformation_definition`: constants, then the lookup steps. */
  function LookupSegment(dates: Dates, lookups: seq<string>, tt: TypeTables): (seg: seq<Step>)
    ensures |seg| == 1 + 2 * |lookups|
    ensures seg[0] == ConstantValues([(Sym("update_date"), dates.today),
                                      (Sym("last_week"), dates.lastWeek),
                                      (Sym("prev_date"), dates.yesterday)])
    ensures seg[1..] == LookupSteps(lookups, tt)
    ensures forall i :: 0 <= i < |lookups| ==> seg[1 + 2 * i].MultiRowLookup? && seg[1 + 2 * i].lookup == lookups[i]
  {
    var steps := LookupSteps(lookups, tt);
    var seg := [ConstantValues([(Sym("update_date"), dates.today),
                                (Sym("last_week"), dates.lastWeek),
                                (Sym("prev_date"), dates.yesterday)])] + steps;
    assert forall i :: 0 <= i < |lookups| ==> seg[1 + 2 * i] == steps[2 * i];
    seg
  }

  /** `constant_merge`: the one `data_source` stamp, the same step the endpoint job starts with. */
  function ConstantMerge(): (seg: seq<Step>)
    ensures |seg| == 1 && seg[0].ConstantValue? && seg[0].target == Sym("data_source")
    ensures seg == TargetSystemLocations.ForEndpointLogic()[..1]
  {
    [ConstantValue(Sym("data_source"), "source system")]
  }

  /**
   * `transformation_definition` as written: a Ruby method returns its last
   * expression, `constant_merge if today_is_odd?`, so the lookup segment is
   * built and thrown away, and on even days the result is `nil`.
   */
  function TransformationDefinitionAsWritten(dates: Dates): (chain: Option<seq<Step>>)
    ensures chain.Some? <==> IsOdd(dates.dayOfMonth)
    ensures chain.Some? ==> forall i :: 0 <= i < |chain.value| ==> !chain.value[i].MultiRowLookup?
    ensures chain.Some? ==> forall i :: 0 <= i < |chain.value| ==> !chain.value[i].ConstantValues?
  {
    if IsOdd(dates.dayOfMonth) then Some(ConstantMerge()) else None
  }

  /** As written, the lookups never reach the chain, and on even days there is no chain at all. */
  lemma AsWrittenDropsLookupSegment(dates: Dates, lookups: seq<string>, tt: TypeTables)
    ensures !IsOdd(dates.dayOfMonth) ==> TransformationDefinitionAsWritten(dates) == None
    ensures IsOdd(dates.dayOfMonth) ==> TransformationDefinitionAsWritten(dates) == Some(ConstantMerge())
    ensures var chain := TransformationDefinitionAsWritten(dates).GetOr([]);
      forall i :: 0 <= i < |chain| ==> !chain[i].MultiRowLookup?
    ensures TransformationDefinitionAsWritten(dates) != Some(LookupSegment(dates, lookups, tt))
  {
    var seg := LookupSegment(dates, lookups, tt);
    assert seg[0].ConstantValues?;
  }

  /**
   * `transformation_definition` as the comment above its last line describes
   * it: the lookup segment composed with the constant merge on odd days.
   */
  function TransformationDefinition(dates: Dates, lookups: seq<string>, tt: TypeTables): (chain: seq<Step>)
    ensures |chain| == 1 + 2 * |lookups| + (if IsOdd(dates.dayOfMonth) then 1 else 0)
    ensures chain[..1 + 2 * |lookups|] == LookupSegment(dates, lookups, tt)
    ensures IsOdd(dates.dayOfMonth) ==> chain[|chain| - 1] == ConstantValue(Sym("data_source"), "source system")
    ensures forall i :: 0 <= i < |lookups| ==> chain[1 + 2 * i].MultiRowLookup? && chain[1 + 2 * i].lookup == lookups[i]
  {
    var seg := LookupSegment(dates, lookups, tt);
    var chain := seg + (if IsOdd(dates.dayOfMonth) then ConstantMerge() else []);
    assert chain[..|seg|] == seg;
    assert forall i :: 0 <= i < |seg| ==> chain[i] == seg[i];
    chain
  }

  /**
   * The corrected chain merges nothing but the lookups: every merge sits at a
   * lookup's slot `1 + 2i`, and the constants around them are no merges.
   */
  lemma CorrectedChainMergesOnlyLookups(dates: Dates, lookups: seq<string>, tt: TypeTables)
    ensures var chain := TransformationDefinition(dates, lookups, tt);
      forall i :: 0 <= i < |chain| && chain[i].MultiRowLookup? ==> i % 2 == 1 && i < 1 + 2 * |lookups|
  {
    var chain := TransformationDefinition(dates, lookups, tt);
    var seg := LookupSegment(dates, lookups, tt);
    var steps := LookupSteps(lookups, tt);
    LookupStepsMergeAtEven(lookups, tt);
    forall i | 0 <= i < |chain| && chain[i].MultiRowLookup?
      ensures i % 2 == 1 && i < 1 + 2 * |lookups|
    {
      if 0 < i < |seg| {
        assert chain[i] == chain[..|seg|][i] == seg[i] == seg[1..][i - 1] == steps[i - 1];
        var j := i - 1;
        assert steps[j].MultiRowLookup?;
        assert j % 2 == 0;
      }
    }
  }

  /**
   * `hash_setting_up_dependencies`: the one conditional source, the
   * `prep_objects` destination, and every registered type-table lookup.
   */
  function HashSettingUpDependencies(tt: TypeTables, registered: set<string>): (files: JobFiles)
    ensures files.sources == [Source(registered)]
    ensures files.destination == "prep_objects"
    ensures forall i :: 0 <= i < |files.lookups| ==> files.lookups[i] in registered
    ensures forall j :: 0 <= j < |tt| && TypeKey(tt[j].0) in registered ==> TypeKey(tt[j].0) in files.lookups
  {
    JobFiles([Source(registered)], "prep_objects", Lookups(tt, registered))
  }

  /**
   * `i_am_the_creator_method` with the corrected `transformation_definition`
   * (the composed chain); `lookups` is evaluated against the same registry
   * twice, for the files and for the chain.
   */
  function IAmTheCreatorMethod(dates: Dates, tt: TypeTables, registered: set<string>): (job: Job)
    ensures job.files == HashSettingUpDependencies(tt, registered)
    ensures |job.chain| == 1 + 2 * |job.files.lookups| + (if IsOdd(dates.dayOfMonth) then 1 else 0)
    ensures job.chain[..1 + 2 * |job.files.lookups|] == LookupSegment(dates, job.files.lookups, tt)
    ensures IsOdd(dates.dayOfMonth) ==> job.chain[|job.chain| - 1] == ConstantMerge()[0]
    ensures forall i :: 0 <= i < |job.files.lookups| ==>
      job.chain[1 + 2 * i].MultiRowLookup? && job.chain[1 + 2 * i].lookup == job.files.lookups[i]
    ensures forall i :: 0 <= i < |job.chain| && job.chain[i].MultiRowLookup? ==>
      i % 2 == 1 && i < 1 + 2 * |job.files.lookups|
  {
    var files := HashSettingUpDependencies(tt, registered);
    CorrectedChainMergesOnlyLookups(dates, files.lookups, tt);
    Job(files, TransformationDefinition(dates, files.lookups, tt))
  }

  /**
   * `i_am_the_creator_method` as written: the transformer is whatever
   * `transformation_definition` returns, so `None` stands for the job built
   * with a `nil` transformer on even days. On odd days the files still declare
   * every registered lookup, but the chain merges none of them.
   */
  function IAmTheCreatorMethodAsWritten(dates: Dates, tt: TypeTables, registered: set<string>): (job: Option<Job>)
    ensures job.Some? <==> IsOdd(dates.dayOfMonth)
    ensures job.Some? ==> job.value.files == HashSettingUpDependencies(tt, registered)
    ensures job.Some? ==> forall i :: 0 <= i < |job.value.chain| ==> !job.value.chain[i].MultiRowLookup?
  {
    var files := HashSettingUpDependencies(tt, registered);
    match TransformationDefinitionAsWritten(dates)
    case Some(chain) => Some(Job(files, chain))
    case None => None
  }

  /**
   * The finding, job by job: whenever a type-table lookup is registered, the
   * job as written differs from the corrected one on every day, since the
   * corrected chain merges the lookup and the written one never does.
   */
  lemma AsWrittenJobMergesNoLookup(dates: Dates, tt: TypeTables, registered: set<string>)
    requires |Lookups(tt, registered)| > 0
    ensures IAmTheCreatorMethodAsWritten(dates, tt, registered) != Some(IAmTheCreatorMethod(dates, tt, registered))
  {
    var corrected := IAmTheCreatorMethod(dates, tt, registered);
    assert corrected.chain[1].MultiRowLookup?;
  }

  /** `foo`: a source and a destination, and no lookup. */
  function Foo(): (files: JobFiles)
    ensures files.sources == ["i_do_not_exist"] && files.destination == "neither_do_i"
    ensures files.lookups == []
  {
    JobFiles(["i_do_not_exist"], "neither_do_i", [])
  }

  /**
   * `bar`: the constant `data_source`, then the `:reversed_location` block.
   * It repeats `for_endpoint_logic` word for word, so it is defined as that.
   */
  function Bar(): (chain: seq<Step>)
    ensures |chain| == 2
    ensures chain[0] == ConstantValue(Sym("data_source"), "source system")
    ensures chain[1] == Inline(InlineBlock.DowncaseReversedLocation)
  {
    TargetSystemLocations.ForEndpointLogic()
  }

  /** `some_other_job`: `foo`'s files with `bar`'s chain. */
  function SomeOtherJob(): (job: Job)
    ensures job.files == Foo() && job.chain == Bar()
  {
    Job(Foo(), Bar())
  }

  /** `bar` repeats `for_endpoint_logic` step for step, inline block included. */
  lemma BarIsEndpointLogic()
    ensures Bar() == TargetSystemLocations.ForEndpointLogic()
    ensures Bar()[1] == Inline(InlineBlock.DowncaseReversedLocation)
  {
  }
}

=== FILE: jobs_locations.dfy ===
/** `KeProject::Jobs::Locations::Clean`: the cleanup chain with the reverser in replace mode. */
module LocationsClean {
  import opened Rows
  import opened Steps
  import SourceSystemLocations

  /** `xforms`: rename, delete `updated_date`, reverse `:loc_name` in place. */
  function Xforms(): (chain: seq<Step>)
    ensures |chain| == 3 && chain[2] == ReverseLocName(true)
    ensures chain[..2] == [SourceSystemLocations.RenameLocId, SourceSystemLocations.DeleteUpdatedDate]
  {
    [SourceSystemLocations.RenameLocId, SourceSystemLocations.DeleteUpdatedDate, ReverseLocName(true)]
  }

  /** `job`: reads `orig__locations`, writes `locations__clean`. */
  function Job(): (job: Steps.Job)
    ensures job.files.sources == ["orig__locations"] && job.files.destination == "locations__clean"
    ensures job.files.lookups == [] && job.chain == Xforms()
  {
    Steps.Job(JobFiles(["orig__locations"], "locations__clean", []), Xforms())
  }

  /** The chain is the source system's direct chain with a replacing reverser appended. */
  lemma XformsExtendDirectChain()
    ensures Xforms() == SourceSystemLocations.CleanLogic("direct") + [ReverseLocName(true)]
    ensures Job().files.sources == SourceSystemLocations.Clean().files.sources
  {
  }
}

/** `KeProject::Jobs::Locations::CleanRev`: the cleanup chain with the reverser writing a new field. */
module LocationsCleanRev {
  import opened Rows
  import opened Steps
  import SourceSystemLocations
  import LocationsClean

  /** `xforms`: rename, delete `updated_date`, reverse `:loc_name` into `:loc_name_reversed`. */
  function Xforms(): (chain: seq<Step>)
    ensures |chain| == 3 && chain[2] == ReverseLocName(false)
    ensures chain[..2] == [SourceSystemLocations.RenameLocId, SourceSystemLocations.DeleteUpdatedDate]
  {
    [SourceSystemLocations.RenameLocId, SourceSystemLocations.DeleteUpdatedDate, ReverseLocName(false)]
  }

  /** `job`: reads `orig__locations`, writes `locations__clean_rev`. */
  function Job(): (job: Steps.Job)
    ensures job.files.sources == ["orig__locations"] && job.files.destination == "locations__clean_rev"
    ensures job.files.lookups == [] && job.chain == Xforms()
  {
    Steps.Job(JobFiles(["orig__locations"], "locations__clean_rev", []), Xforms())
  }

  /**
   * The chain is exactly `clean_logic(direction: :reversed)`, and it differs
   * from `Clean.xforms` only in the reverser's `replace` flag.
   */
  lemma XformsMatchReversedLogic()
    ensures Xforms() == SourceSystemLocations.CleanLogic("reversed")
    ensures |Xforms()| == |LocationsClean.Xforms()|
    ensures Xforms()[..2] == LocationsClean.Xforms()[..2]
    ensures Xforms()[2] == LocationsClean.Xforms()[2].(replace := false)
  {
  }
}

/** `KeProject::Jobs::Locations::ToJson`: stamps a data source and lower-cases non-offsite names. */
module LocationsToJson {
  import opened Wrappers
  import opened Rows
  import opened Steps
  import Text
  import LocationsClean

  const LocationType: FieldKey := Sym("location_type")
  const LocName: FieldKey := Sym("loc_name")

  /** Why the block raised: `downcase` was sent to `nil`. */
  datatype BlockError = DowncaseOnNil(field: FieldKey)

  /**
   * The inline block of `xforms`: an offsite row passes unchanged; any other
   * row, a `nil` location type included, has `:loc_name` lower-cased, which
   * raises when the name is `nil` or missing.
   */
  function SkipOffsiteElseDowncase(row: Row): (r: Result<Row, BlockError>)
    ensures Fetch(row, LocationType) == Some("offsite") ==> r == Success(row)
    ensures Fetch(row, LocationType) != Some("offsite") ==>
      (r.Failure? <==> Fetch(row, LocName).None?)
    ensures r.Success? && Fetch(row, LocationType) != Some("offsite") ==>
      r.value == row[LocName := Some(Text.Downcase(Fetch(row, LocName).value))]
  {
    var val := Fetch(row, LocationType);
    if val.Some? && val.value == "offsite" then Success(row)
    else
      var name := Fetch(row, LocName);
      if name.None? then Failure(DowncaseOnNil(LocName))
      else Success(row[LocName := Some(Text.Downcase(name.value))])
  }

  /** The block only ever rewrites `:loc_name`, and running it again changes nothing more. */
  lemma BlockTouchesOnlyLocName(row: Row)
    requires SkipOffsiteElseDowncase(row).Success?
    ensures var r := SkipOffsiteElseDowncase(row).value;
      && r - {LocName} == row - {LocName}
      && r.Keys == row.Keys
      && SkipOffsiteElseDowncase(r) == Success(r)
  {
    var r := SkipOffsiteElseDowncase(row).value;
    if Fetch(row, LocationType) != Some("offsite") {
      var v := Fetch(row, LocName).value;
      assert LocationType != LocName;
      assert Fetch(r, LocationType) == Fetch(row, LocationType);
      Text.DowncaseIdempotent(v);
      assert r[LocName := Some(Text.Downcase(Text.Downcase(v)))] == r;
    }
  }

  /** `xforms`: the constant `data_source` first, then the inline block. */
  function Xforms(): (chain: seq<Step>)
    ensures |chain| == 2
    ensures chain[0] == ConstantValue(Sym("data_source"), "source system")
    ensures chain[1] == Inline(InlineBlock.SkipOffsiteElseDowncase)
  {
    [ConstantValue(Sym("data_source"), "source system"), Inline(InlineBlock.SkipOffsiteElseDowncase)]
  }

  /** `job`: reads `locations__clean`, writes `locations__to_json`. */
  function Job(): (job: Steps.Job)
    ensures job.files.sources == ["locations__clean"] && job.files.destination == "locations__to_json"
    ensures job.files.lookups == [] && job.chain == Xforms()
  {
    Steps.Job(JobFiles(["locations__clean"], "locations__to_json", []), Xforms())
  }

  /**
   * The job reads what `Jobs::Locations::Clean` writes, and `data_source` is
   * stamped before the block runs.
   */
  lemma ReadsCleanOutput()
    ensures Job().files.sources == [LocationsClean.Job().files.destination]
    ensures Job().chain[0].ConstantValue? && Job().chain[0].target == Sym("data_source")
    ensures Job().chain[1] == Inline(InlineBlock.SkipOffsiteElseDowncase)
  {
  }
}

=== FILE: loc_name_reverser.dfy ===
/**
 * `KeProject::Transforms::Locations::LocNameReverser`: writes the character
 * reversal of `:loc_name` either back into `:loc_name` (replace mode, the
 * default) or into a new `:loc_name_reversed` field.
 */
module LocNameReverser {
  import opened Wrappers
  import opened Rows
  import Text

  const LocNameField: FieldKey := Sym("loc_name")

  /** The configuration captured by `initialize(replace:)`. */
  datatype Reverser = Reverser(replace: bool)

  /** `LocNameReverser.new` with no arguments. */
  const Default: Reverser := Reverser(true)

  /** The field `initialize` selects as `@target`. */
  function Target(x: Reverser): (f: FieldKey)
    ensures f == Sym("loc_name") <==> x.replace
    ensures !x.replace ==> f == Sym("loc_name_reversed")
  {
    // `"#{@loc_name_field}_reversed".to_sym`
    if x.replace then LocNameField else Sym("loc_name_reversed")
  }

  /**
   * `process(row)`: the target is always written; it is `nil` when `:loc_name`
   * is blank or missing and the reversed name otherwise. The row is always
   * returned and no other field changes.
   */
  function Process(x: Reverser, row: Row): (r: Row)
    ensures Target(x) in r
    ensures r - {Target(x)} == row - {Target(x)}
    ensures Blank(Fetch(row, LocNameField)) ==> r[Target(x)] == None
    ensures !Blank(Fetch(row, LocNameField)) ==>
      r[Target(x)] == Some(Text.Reverse(Fetch(row, LocNameField).value))
  {
    var value := Fetch(row, LocNameField);
    var cleared := row[Target(x) := None];
    if Blank(value) then cleared else RowWithReversedValue(x, cleared, value.value)
  }

  /** `row_with_reversed_value`: the target holds the reversal, and every other field is kept. */
  function RowWithReversedValue(x: Reverser, row: Row, value: string): (r: Row)
    ensures r.Keys == row.Keys + {Target(x)}
    ensures r[Target(x)].Some? && Text.Reverse(r[Target(x)].value) == value
    ensures forall k :: k in row && k != Target(x) ==> r[k] == row[k]
  {
    Text.ReverseInvolution(value);
    row[Target(x) := Some(Text.Reverse(value))]
  }

  /** With `replace: false`, `:loc_name` keeps whatever it held, `nil` and `""` included. */
  lemma NewFieldModeKeepsLocName(row: Row)
    ensures var r := Process(Reverser(false), row);
      && (LocNameField in r <==> LocNameField in row)
      && Fetch(r, LocNameField) == Fetch(row, LocNameField)
      && Sym("loc_name_reversed") in r
  {
    var r := Process(Reverser(false), row);
    assert LocNameField in r - {Target(Reverser(false))} <==> LocNameField in row - {Target(Reverser(false))};
  }

  /** With `replace: true`, no `:loc_name_reversed` field is introduced and `:loc_name` is present. */
  lemma ReplaceModeAddsNoField(row: Row)
    ensures var r := Process(Reverser(true), row);
      && LocNameField in r
      && (Sym("loc_name_reversed") in r <==> Sym("loc_name_reversed") in row)
      && r.Keys == row.Keys + {LocNameField}
  {
    var r := Process(Reverser(true), row);
    var k := Sym("loc_name_reversed");
    assert k in r - {LocNameField} <==> k in row - {LocNameField};
  }

  /** The reversed value has the length of the original one. */
  lemma ReversedValueSameLength(x: Reverser, row: Row)
    requires !Blank(Fetch(row, LocNameField))
    ensures var r := Process(x, row);
      r[Target(x)].Some? && |r[Target(x)].value| == |Fetch(row, LocNameField).value|
  {
  }

  /** `Process` as one update of the target field. */
  lemma ProcessUpdatesTarget(x: Reverser, row: Row)
    ensures var v := Fetch(row, LocNameField);
      Process(x, row) == row[Target(x) := if Blank(v) then None else Some(Text.Reverse(v.value))]
  {
    var v := Fetch(row, LocNameField);
    if !Blank(v) {
      var t := Target(x);
      assert row[t := None][t := Some(Text.Reverse(v.value))] == row[t := Some(Text.Reverse(v.value))];
    }
  }

  /** Reversing in place twice gives back a row whose `:loc_name` is not blank. */
  lemma ReplaceTwiceRestores(row: Row)
    requires !Blank(Fetch(row, LocNameField))
    ensures Process(Default, Process(Default, row)) == row
  {
    var v := Fetch(row, LocNameField).value;
    var once := Process(Default, row);
    assert once == row[LocNameField := Some(Text.Reverse(v))] by {
      ProcessUpdatesTarget(Default, row);
    }
    assert Process(Default, once) == once[LocNameField := Some(v)] by {
      Text.ReversePreservesBlank(v);
      Text.ReverseInvolution(v);
      ProcessUpdatesTarget(Default, once);
    }
    assert once[LocNameField := Some(v)] == row by {
      assert LocNameField in row && row[LocNameField] == Some(v);
    }
  }

  /** The rows of the transform's own examples with `replace: false`. */
  lemma NewFieldModeExamples()
    ensures Process(Reverser(false), map[LocNameField := Some("bat")])
         == map[LocNameField := Some("bat"), Sym("loc_name_reversed") := Some("tab")]
    ensures Process(Reverser(false), map[LocNameField := None])
         == map[LocNameField := None, Sym("loc_name_reversed") := None]
    ensures Process(Reverser(false), map[LocNameField := Some("")])
         == map[LocNameField := Some(""), Sym("loc_name_reversed") := None]
    ensures Process(Reverser(false), map[LocNameField := Some("pop")])
         == map[LocNameField := Some("pop"), Sym("loc_name_reversed") := Some("pop")]
  {
    ExampleValues();
    ProcessUpdatesTarget(Reverser(false), map[LocNameField := Some("bat")]);
    ProcessUpdatesTarget(Reverser(false), map[LocNameField := None]);
    ProcessUpdatesTarget(Reverser(false), map[LocNameField := Some("")]);
    ProcessUpdatesTarget(Reverser(false), map[LocNameField := Some("pop")]);
  }

  /** The rows of the transform's own examples with the default `replace: true`. */
  lemma ReplaceModeExamples()
    ensures Process(Default, map[LocNameField := Some("bat")]) == map[LocNameField := Some("tab")]
    ensures Process(Default, map[LocNameField := None]) == map[LocNameField := None]
    ensures Process(Default, map[LocNameField := Some("")]) == map[LocNameField := None]
    ensures Process(Default, map[LocNameField := Some("pop")]) == map[LocNameField := Some("pop")]
  {
    ExampleValues();
    ProcessUpdatesTarget(Default, map[LocNameField := Some("bat")]);
    ProcessUpdatesTarget(Default, map[LocNameField := None]);
    ProcessUpdatesTarget(Default, map[LocNameField := Some("")]);
    ProcessUpdatesTarget(Default, map[LocNameField := Some("pop")]);
  }

  lemma ExampleValues()
    ensures !Blank(Some("bat")) && !Blank(Some("pop")) && Blank(Some("")) && Blank(None)
    ensures Text.Reverse("bat") == "tab" && Text.Reverse("pop") == "pop"
  {
    assert !Text.IsSpace("bat"[0]);
    assert !Text.IsSpace("pop"[0]);
  }
}

=== FILE: pipeline.dfy ===
/**
 * What a chain does to rows. The project's own steps (the reverser and the
 * inline blocks) and the `FieldEqualTo` row filter are interpreted here; every
 * other kiba-extend transform is given its per-row meaning by the `lib`
 * parameter, since its code is not part of this model. A transform that looks
 * at the whole stream, such as `Clean::EnsureConsistentFields`, has no per-row
 * meaning, so a chain holding one is described here only up to that step.
 */
module Pipeline {
  import opened Wrappers
  import opened Rows
  import opened Steps
  import LocNameReverser
  import LocationsToJson
  import TargetSystemLocations
  import PrepForCleanup
  import SourceSystemLocations
  import LocationsClean
  import LocationsCleanRev
  import TypePrep

  /** Why a job stopped: an inline block raised, or a library transform did. */
  datatype Error =
    | BlockRaised(block: InlineBlock, field: FieldKey)
    | LibraryRaised(step: Step)

  /** What one step does with one row: pass it on (possibly changed), filter it out, or raise. */
  datatype Outcome = Emit(row: Row) | Drop | Fail(error: Error)

  /** The per-row meaning of the library transforms that work one row at a time. */
  type Library = (Step, Row) -> Outcome

  /** One step on one row. */
  function ApplyStep(step: Step, row: Row, lib: Library): (o: Outcome)
    ensures step.ReverseLocName? ==> o == Emit(LocNameReverser.Process(LocNameReverser.Reverser(step.replace), row))
    ensures step.Inline? ==> !o.Drop?
    ensures step.FieldEqualTo? ==> !o.Fail? && (o.Emit? ==> o.row == row)
    ensures step.FieldEqualTo? ==>
      (o.Drop? <==> ((Fetch(row, step.field) == Some(step.value)) <==> step.action == Reject))
    ensures !step.ReverseLocName? && !step.Inline? && !step.FieldEqualTo? ==> o == lib(step, row)
  {
    match step
    case ReverseLocName(replace) => Emit(LocNameReverser.Process(LocNameReverser.Reverser(replace), row))
    case Inline(block) => ApplyBlock(block, row)
    case FieldEqualTo(action, field, value) =>
      var equal := Fetch(row, field) == Some(value);
      if equal == (action == Reject) then Drop else Emit(row)
    case _ => lib(step, row)
  }

  /** The inline blocks, with a raised error carried as `Fail`. */
  function ApplyBlock(block: InlineBlock, row: Row): (o: Outcome)
    ensures !o.Drop?
    ensures o.Fail? ==> o.error.BlockRaised? && o.error.block == block
  {
    match block
    case SkipOffsiteElseDowncase =>
      var r := LocationsToJson.SkipOffsiteElseDowncase(row);
      if r.Failure? then Fail(BlockRaised(block, r.error.field)) else Emit(r.value)
    case DowncaseReversedLocation =>
      Emit(TargetSystemLocations.DowncaseReversedLocation(row))
    case ParsePlace =>
      var r := PrepForCleanup.ParsePlace(row);
      if r.Failure? then Fail(BlockRaised(block, r.error.field)) else Emit(r.value)
  }

  /**
   * A chain on one row, left to right; a dropped or failed row goes no
   * further. The empty chain writes the row as it is; only the row filter or
   * a library transform drops a row, and only a block or a library transform
   * raises.
   */
  function RunRow(chain: seq<Step>, row: Row, lib: Library): (o: Outcome)
    ensures chain == [] ==> o == Emit(row)
    ensures o.Drop? ==> exists i :: 0 <= i < |chain| && !chain[i].ReverseLocName? && !chain[i].Inline?
    ensures o.Fail? ==> exists i :: 0 <= i < |chain| && !chain[i].ReverseLocName? && !chain[i].FieldEqualTo?
    decreases |chain|
  {
    if chain == [] then Emit(row)
    else
      match ApplyStep(chain[0], row, lib)
      case Emit(r) => RunRow(chain[1..], r, lib)
      case other => other
  }

  /** Continue an outcome with more steps: only a kept row moves on. */
  function Then(o: Outcome, chain: seq<Step>, lib: Library): Outcome {
    if o.Emit? then RunRow(chain, o.row, lib) else o
  }

  /** Running two chains one after the other is running their concatenation. */
  lemma {:induction false} RunRowAppend(a: seq<Step>, b: seq<Step>, row: Row, lib: Library)
    ensures RunRow(a + b, row, lib) == Then(RunRow(a, row, lib), b, lib)
    decreases |a|
  {
    if a == [] {
      assert a + b == b;
    } else {
      assert (a + b)[0] == a[0];
      assert (a + b)[1..] == a[1..] + b;
      var o := ApplyStep(a[0], row, lib);
      if o.Emit? {
        RunRowAppend(a[1..], b, o.row, lib);
      }
    }
  }

  /** A row that some step drops or fails on never reaches the later steps. */
  lemma StopsAtFirstFailure(a: seq<Step>, b: seq<Step>, row: Row, lib: Library)
    requires !RunRow(a, row, lib).Emit?
    ensures RunRow(a + b, row, lib) == RunRow(a, row, lib)
  {
    RunRowAppend(a, b, row, lib);
  }

  /**
   * A job over a row stream: kept rows are written in order, dropped rows are
   * not, and the first failing row stops the job.
   */
  function RunRows(chain: seq<Step>, rows: seq<Row>, lib: Library): (r: Result<seq<Row>, Error>)
    ensures r.Success? ==> |r.value| <= |rows|
    decreases |rows|
  {
    if rows == [] then Success([])
    else
      match RunRow(chain, rows[0], lib)
      case Fail(e) => Failure(e)
      case Drop => RunRows(chain, rows[1..], lib)
      case Emit(r) =>
        var rest := RunRows(chain, rows[1..], lib);
        if rest.Failure? then rest else Success([r] + rest.value)
  }

  /**
   * Reading two streams one after the other (a job with several sources)
   * writes the first stream's output followed by the second's, and fails
   * with the first error met.
   */
  lemma {:induction false} RunRowsConcat(chain: seq<Step>, xs: seq<Row>, ys: seq<Row>, lib: Library)
    ensures var rx := RunRows(chain, xs, lib);
      RunRows(chain, xs + ys, lib) ==
        if rx.Failure? then rx
        else
          var ry := RunRows(chain, ys, lib);
          if ry.Failure? then ry else Success(rx.value + ry.value)
    decreases |xs|
  {
    if xs == [] {
      assert xs + ys == ys;
      var ry := RunRows(chain, ys, lib);
      if ry.Success? {
        assert [] + ry.value == ry.value;
      }
    } else {
      assert (xs + ys)[0] == xs[0];
      assert (xs + ys)[1..] == xs[1..] + ys;
      RunRowsConcat(chain, xs[1..], ys, lib);
      var o := RunRow(chain, xs[0], lib);
      if o.Emit? {
        var rx := RunRows(chain, xs[1..], lib);
        var ry := RunRows(chain, ys, lib);
        if rx.Success? && ry.Success? {
          assert [o.row] + (rx.value + ry.value) == ([o.row] + rx.value) + ry.value;
        }
      }
    }
  }

  /** A chain that keeps every row writes exactly as many rows as it reads. */
  lemma {:induction false} RunRowsKeepsCount(chain: seq<Step>, rows: seq<Row>, lib: Library)
    requires forall i :: 0 <= i < |rows| ==> RunRow(chain, rows[i], lib).Emit?
    ensures RunRows(chain, rows, lib).Success?
    ensures |RunRows(chain, rows, lib).value| == |rows|
    ensures forall i :: 0 <= i < |rows| ==> RunRows(chain, rows, lib).value[i] == RunRow(chain, rows[i], lib).row
    decreases |rows|
  {
    if rows != [] {
      assert RunRow(chain, rows[0], lib).Emit?;
      RunRowsKeepsCount(chain, rows[1..], lib);
      forall i | 1 <= i < |rows| ensures RunRow(chain, rows[1..][i - 1], lib) == RunRow(chain, rows[i], lib) {
        assert rows[1..][i - 1] == rows[i];
      }
    }
  }

  /** A reverser-only chain writes every row it reads, each passed through the reverser. */
  lemma ReverserNeverDrops(replace: bool, rows: seq<Row>, lib: Library)
    ensures RunRows([ReverseLocName(replace)], rows, lib).Success?
    ensures var out := RunRows([ReverseLocName(replace)], rows, lib).value;
      |out| == |rows| &&
      forall i :: 0 <= i < |rows| ==> out[i] == LocNameReverser.Process(LocNameReverser.Reverser(replace), rows[i])
  {
    var chain := [ReverseLocName(replace)];
    forall i | 0 <= i < |rows| ensures RunRow(chain, rows[i], lib) == Emit(LocNameReverser.Process(LocNameReverser.Reverser(replace), rows[i])) {
      assert chain[1..] == [];
    }
    RunRowsKeepsCount(chain, rows, lib);
  }

  /**
   * `clean_reverse` on a row is `clean` on that row followed by a new-field
   * reverser: same outcome when `clean` drops or fails, the reverser's
   * output otherwise.
   */
  lemma CleanReverseIsCleanThenReverser(row: Row, lib: Library)
    ensures var direct := RunRow(SourceSystemLocations.Clean().chain, row, lib);
      RunRow(SourceSystemLocations.CleanReverse().chain, row, lib) ==
        if direct.Emit? then Emit(LocNameReverser.Process(LocNameReverser.Reverser(false), direct.row)) else direct
  {
    SourceSystemLocations.CleanJobsRelation();
    var direct := SourceSystemLocations.Clean().chain;
    RunRowAppend(direct, [ReverseLocName(false)], row, lib);
    var o := RunRow(direct, row, lib);
    if o.Emit? {
      assert [ReverseLocName(false)][1..] == [];
    }
  }

  /**
   * `Jobs::Locations::Clean`: whatever the rename and delete steps leave, the
   * reverser in replace mode adds no field but `:loc_name`, so it never
   * introduces `:loc_name_reversed`.
   */
  lemma CleanAddsNoReversedField(row: Row, lib: Library)
    requires RunRow(SourceSystemLocations.CleanLogic("direct"), row, lib).Emit?
    ensures var before := RunRow(SourceSystemLocations.CleanLogic("direct"), row, lib).row;
      var after := RunRow(LocationsClean.Xforms(), row, lib);
      && after.Emit?
      && after.row.Keys == before.Keys + {LocNameReverser.LocNameField}
      && (Sym("loc_name_reversed") in after.row <==> Sym("loc_name_reversed") in before)
  {
    LocationsClean.XformsExtendDirectChain();
    var direct := SourceSystemLocations.CleanLogic("direct");
    RunRowAppend(direct, [ReverseLocName(true)], row, lib);
    var before := RunRow(direct, row, lib).row;
    assert [ReverseLocName(true)][1..] == [];
    LocNameReverser.ReplaceModeAddsNoField(before);
  }

  /**
   * `Jobs::Locations::CleanRev`: the last step keeps `:loc_name` as the
   * earlier steps left it and always writes `:loc_name_reversed`.
   */
  lemma CleanRevKeepsLocName(row: Row, lib: Library)
    requires RunRow(SourceSystemLocations.CleanLogic("direct"), row, lib).Emit?
    ensures var before := RunRow(SourceSystemLocations.CleanLogic("direct"), row, lib).row;
      var after := RunRow(LocationsCleanRev.Xforms(), row, lib);
      && after.Emit?
      && Sym("loc_name_reversed") in after.row
      && Fetch(after.row, LocNameReverser.LocNameField) == Fetch(before, LocNameReverser.LocNameField)
  {
    LocationsCleanRev.XformsMatchReversedLogic();
    SourceSystemLocations.CleanJobsRelation();
    var direct := SourceSystemLocations.CleanLogic("direct");
    assert LocationsCleanRev.Xforms() == direct + [ReverseLocName(false)];
    RunRowAppend(direct, [ReverseLocName(false)], row, lib);
    var before := RunRow(direct, row, lib).row;
    assert [ReverseLocName(false)][1..] == [];
    LocNameReverser.NewFieldModeKeepsLocName(before);
  }

  /** `Jobs::TypePrep`: a row is filtered out exactly when its value field is `'undefined'`; others pass unchanged. */
  lemma TypePrepRejectsUndefined(valfield: string, row: Row, lib: Library)
    ensures Fetch(row, Sym(valfield)) == Some("undefined") ==> RunRow(TypePrep.Xforms(valfield), row, lib) == Drop
    ensures Fetch(row, Sym(valfield)) != Some("undefined") ==> RunRow(TypePrep.Xforms(valfield), row, lib) == Emit(row)
  {
    assert TypePrep.Xforms(valfield)[1..] == [];
  }

  /**
   * `Jobs::Locations::ToJson`: once the library has stamped `data_source`,
   * the job fails on a row exactly when it is not offsite and has no
   * `:loc_name`, and otherwise writes the block's result.
   */
  lemma ToJsonFailsOnlyOnMissingName(row: Row, stamped: Row, lib: Library)
    requires lib(LocationsToJson.Xforms()[0], row) == Emit(stamped)
    ensures var o := RunRow(LocationsToJson.Xforms(), row, lib);
      && (o.Fail? <==> Fetch(stamped, LocationsToJson.LocationType) != Some("offsite")
                       && Fetch(stamped, LocationsToJson.LocName).None?)
      && (o.Emit? <==> LocationsToJson.SkipOffsiteElseDowncase(stamped).Success?)
      && (o.Emit? ==> o.row == LocationsToJson.SkipOffsiteElseDowncase(stamped).value)
  {
    var chain := LocationsToJson.Xforms();
    assert chain[1..][1..] == [];
  }

  /**
   * `TargetSystem::Locations.for_endpoint`: once the library has stamped
   * `data_source`, the job keeps every row and only `:reversed_location`
   * can differ from the stamped row.
   */
  lemma ForEndpointKeepsRows(row: Row, stamped: Row, lib: Library)
    requires lib(TargetSystemLocations.ForEndpointLogic()[0], row) == Emit(stamped)
    ensures var o := RunRow(TargetSystemLocations.ForEndpointLogic(), row, lib);
      && o.Emit?
      && o.row - {TargetSystemLocations.ReversedLocation} == stamped - {TargetSystemLocations.ReversedLocation}
  {
    var chain := TargetSystemLocations.ForEndpointLogic();
    assert chain[1..][1..] == [];
  }

  /** `Jobs::Places::PrepForCleanup`: a row with a `nil` or missing `:place` fails the job at the first step. */
  lemma PrepForCleanupFailsWithoutPlace(row: Row, lib: Library)
    requires Fetch(row, PrepForCleanup.Place).None?
    ensures RunRow(PrepForCleanup.Xforms(), row, lib) == Fail(BlockRaised(InlineBlock.ParsePlace, PrepForCleanup.Place))
  {
  }
}

=== FILE: places.dfy ===
/** `KeProject::Places`: the fields a place fingerprint is built from (a setting's default). */
module Places {
  import opened Rows

  const FingerprintFields: seq<FieldKey> :=
    [Sym("place"), Sym("country"), Sym("state"), Sym("county"), Sym("city")]
}

/** `KeProject::PlacesCleanup`: the settings of the iterative place cleanup and the worksheet field order. */
module PlacesCleanup {
  import opened Rows
  import Seqs
  import Places

  const BaseJob := "places__prep_for_cleanup"
  const JobTags: seq<string> := ["place", "cleanup"]
  const WorksheetAddFields: seq<FieldKey> := [Sym("proximity"), Sym("uncertainty")]
  const FingerprintFlagIgnoreFields: seq<FieldKey> := [Sym("place")]

  /**
   * `fingerprint_fields`: delegates to the `Places` setting, whose default is
   * the place string and the four place levels, broadest first.
   */
  function FingerprintFields(): (fields: seq<FieldKey>)
    ensures fields == [Sym("place"), Sym("country"), Sym("state"), Sym("county"), Sym("city")]
  {
    Places.FingerprintFields
  }

  /**
   * `fingerprint_fields - fingerprint_flag_ignore_fields` (Ruby's `Array#-`):
   * every ignored field is gone, every other fingerprint field is kept as
   * often as it occurs, and the kept fields stay in their original order.
   */
  function WorksheetFieldOrder(fingerprint: seq<FieldKey>, ignore: seq<FieldKey>): (order: seq<FieldKey>)
    ensures forall i :: 0 <= i < |order| ==> order[i] !in ignore && order[i] in fingerprint
    ensures forall i :: 0 <= i < |fingerprint| && fingerprint[i] !in ignore ==> fingerprint[i] in order
    ensures forall f :: multiset(order)[f] == if f !in ignore then multiset(fingerprint)[f] else 0
    ensures Seqs.IsSubsequence(order, fingerprint)
    ensures |order| <= |fingerprint|
  {
    Seqs.FilterCounts(fingerprint, f => f !in ignore);
    Seqs.Filter(fingerprint, f => f !in ignore)
  }

  /** Taking the difference a second time changes nothing. */
  lemma WorksheetFieldOrderIdempotent(fingerprint: seq<FieldKey>, ignore: seq<FieldKey>)
    ensures WorksheetFieldOrder(WorksheetFieldOrder(fingerprint, ignore), ignore)
         == WorksheetFieldOrder(fingerprint, ignore)
  {
    Seqs.FilterIdempotent(fingerprint, f => f !in ignore);
  }

  /** With the default settings the worksheet lists country, state, county and city. */
  lemma DefaultWorksheetFieldOrder()
    ensures WorksheetFieldOrder(FingerprintFields(), FingerprintFlagIgnoreFields)
         == [Sym("country"), Sym("state"), Sym("county"), Sym("city")]
  {
    var fp := FingerprintFields();
    var keep := (f: FieldKey) => f !in FingerprintFlagIgnoreFields;
    assert !keep(fp[0]);
    assert forall i :: 0 <= i < |fp[1..]| ==> keep(fp[1..][i]);
    Seqs.FilterKeepsAll(fp[1..], keep);
    assert fp[1..] == [Sym("country"), Sym("state"), Sym("county"), Sym("city")];
  }
}

=== FILE: prep_for_cleanup.dfy ===
/**
 * `KeProject::Jobs::Places::PrepForCleanup`: spreads the `|||`-separated
 * `key: value` pairs of `:place` over string-keyed fields, fingerprints the
 * row and drops `:place`.
 */
module PrepForCleanup {
  import opened Wrappers
  import opened Rows
  import opened Steps
  import Text
  import Places
  import PlacesCleanup

  const Place: FieldKey := Sym("place")
  const SegmentSeparator := "|||"
  const PairSeparator := ": "

  /** Why the block raised: `split` was sent to `nil`. */
  datatype ParseError = SplitOnNil(field: FieldKey)

  /**
   * `pair = pairstr.split(": ")`, read as `pair[0]` and `pair[1]`: a missing
   * element reads as `nil`. The key is a string, never a symbol; further parts
   * are ignored.
   */
  function PairOf(segment: string): (pair: (FieldKey, Value))
    ensures !pair.0.Sym?
  {
    var parts := Text.RubySplit(segment, PairSeparator);
    (if |parts| > 0 then Str(parts[0]) else NilKey, if |parts| > 1 then Some(parts[1]) else None)
  }

  /** `row[pair[0]] = pair[1]` for each pair, left to right: the keys grow by exactly the keys the pairs name. */
  function ApplyPairs(row: Row, pairs: seq<(FieldKey, Value)>): (r: Row)
    ensures r.Keys == row.Keys + set i | 0 <= i < |pairs| :: pairs[i].0
    decreases |pairs|
  {
    if pairs == [] then row else ApplyPairs(row[pairs[0].0 := pairs[0].1], pairs[1..])
  }

  /** The pairs of a place string, one per `|||` segment. */
  function PairsOf(place: string): (pairs: seq<(FieldKey, Value)>)
    ensures |pairs| == |Text.RubySplit(place, SegmentSeparator)|
    ensures forall i :: 0 <= i < |pairs| ==> pairs[i] == PairOf(Text.RubySplit(place, SegmentSeparator)[i])
  {
    var segments := Text.RubySplit(place, SegmentSeparator);
    seq(|segments|, i requires 0 <= i < |segments| => PairOf(segments[i]))
  }

  /** The first inline block of `xforms`; a `nil` or missing `:place` raises. */
  function ParsePlace(row: Row): (r: Result<Row, ParseError>)
    ensures r.Failure? <==> Fetch(row, Place).None?
    ensures r.Success? ==> r.value == ApplyPairs(row, PairsOf(Fetch(row, Place).value))
  {
    var place := Fetch(row, Place);
    if place.None? then Failure(SplitOnNil(Place)) else Success(ApplyPairs(row, PairsOf(place.value)))
  }

  /** A key that no pair names keeps its presence and value. */
  lemma {:induction false} ApplyPairsUntouched(row: Row, pairs: seq<(FieldKey, Value)>, k: FieldKey)
    requires forall i :: 0 <= i < |pairs| ==> pairs[i].0 != k
    ensures var r := ApplyPairs(row, pairs); (k in r <==> k in row) && Fetch(r, k) == Fetch(row, k)
    decreases |pairs|
  {
    if pairs != [] {
      ApplyPairsUntouched(row[pairs[0].0 := pairs[0].1], pairs[1..], k);
    }
  }

  /** A key takes the value of the last pair that names it: later segments win. */
  lemma {:induction false} ApplyPairsLastWins(row: Row, pairs: seq<(FieldKey, Value)>, i: int)
    requires 0 <= i < |pairs|
    requires forall j :: i < j < |pairs| ==> pairs[j].0 != pairs[i].0
    ensures var r := ApplyPairs(row, pairs); pairs[i].0 in r && r[pairs[i].0] == pairs[i].1
    decreases |pairs|
  {
    var next := row[pairs[0].0 := pairs[0].1];
    if i == 0 {
      ApplyPairsUntouched(next, pairs[1..], pairs[0].0);
    } else {
      ApplyPairsLastWins(next, pairs[1..], i - 1);
    }
  }

  /** The parser only ever writes string keys (or `nil`), so `:place` and every other symbol key survive it. */
  lemma ParsePlaceKeepsSymbolKeys(row: Row, name: string)
    requires ParsePlace(row).Success?
    ensures var r := ParsePlace(row).value;
      (Sym(name) in r <==> Sym(name) in row) && Fetch(r, Sym(name)) == Fetch(row, Sym(name))
  {
    var pairs := PairsOf(Fetch(row, Place).value);
    ApplyPairsUntouched(row, pairs, Sym(name));
  }

  /** An empty `:place` makes no assignment. */
  lemma ParsePlaceEmpty(row: Row)
    requires Fetch(row, Place) == Some("")
    ensures ParsePlace(row) == Success(row)
  {
    Text.RubySplitEmpty(SegmentSeparator);
  }

  /**
   * Formatting a pair as `"key: value"` and reading it back gives the pair,
   * for a key without colons and a non-empty value without `": "`.
   */
  lemma PairOfRoundTrip(key: string, value: string)
    requires forall i :: 0 <= i < |key| ==> key[i] != ':'
    requires value != "" && !Text.Contains(value, PairSeparator)
    ensures PairOf(key + PairSeparator + value) == (Str(key), Some(value))
  {
    var s := key + PairSeparator + value;
    forall i | 0 <= i < |key| ensures !Text.OccursAt(s, PairSeparator, i) {
      assert s[i] == key[i];
    }
    Text.SplitAllPlainPrefix(key, PairSeparator, value);
    Text.SplitAllWithoutSeparator(value, PairSeparator);
    assert Text.SplitAll(s, PairSeparator) == [key, value];
  }

  /**
   * Only the first two parts of a segment count: whatever follows a second
   * `": "` is ignored, for the same keys and values as `PairOfRoundTrip`.
   */
  lemma PairOfIgnoresRest(key: string, value: string, rest: string)
    requires forall i :: 0 <= i < |key| ==> key[i] != ':'
    requires value != "" && !Text.Contains(value, PairSeparator)
    ensures PairOf(key + PairSeparator + value + PairSeparator + rest) == (Str(key), Some(value))
  {
    var t := value + PairSeparator + rest;
    var s := key + PairSeparator + t;
    assert s == key + PairSeparator + value + PairSeparator + rest;
    forall i | 0 <= i < |key| ensures !Text.OccursAt(s, PairSeparator, i) {
      assert s[i] == key[i];
    }
    forall i | 0 <= i < |value| ensures !Text.OccursAt(t, PairSeparator, i) {
      if i + 2 <= |value| {
        assert t[i..i + 2] == value[i..i + 2];
        assert !Text.OccursAt(value, PairSeparator, i);
      } else {
        assert t[i + 1] == ':';
      }
    }
    Text.SplitAllPlainPrefix(key, PairSeparator, t);
    Text.SplitAllPlainPrefix(value, PairSeparator, rest);
    var all := Text.SplitAll(s, PairSeparator);
    assert all[0] == key && all[1] == value;
    var parts := Text.RubySplit(s, PairSeparator);
    assert |parts| > 1;
    assert parts[0] == key && parts[1] == value;
  }

  /** How single segments read: extra parts are ignored, an empty segment writes `row[nil]`. */
  lemma PairOfExamples()
    ensures PairOf("a: b: c") == (Str("a"), Some("b"))
    ensures PairOf("") == (NilKey, None)
  {
    assert !Text.OccursAt("a: b: c", PairSeparator, 0);
    assert !Text.OccursAt("b: c", PairSeparator, 0);
    assert "a: b: c" == "a" + PairSeparator + "b: c";
    assert "b: c" == "b" + PairSeparator + "c";
    Text.SplitAllPlainPrefix("a", PairSeparator, "b: c");
    Text.SplitAllPlainPrefix("b", PairSeparator, "c");
    Text.SplitAllWithoutSeparator("c", PairSeparator);
    assert Text.SplitAll("a: b: c", PairSeparator) == ["a", "b", "c"];
  }

  /** A non-empty segment without `": "` sets its own text as a key, to `nil`. */
  lemma PairOfWithoutSeparator(segment: string)
    requires segment != "" && !Text.Contains(segment, PairSeparator)
    ensures PairOf(segment) == (Str(segment), None)
  {
    Text.RubySplitWithoutSeparator(segment, PairSeparator);
  }

  /**
   * `xforms`: parse, make the fields consistent, fingerprint, then delete
   * `:place`. The parser is the only inline block, and it comes first.
   */
  function Xforms(): (chain: seq<Step>)
    ensures |chain| == 4
    ensures chain[0] == Inline(InlineBlock.ParsePlace)
    ensures forall i :: 0 < i < |chain| ==> !chain[i].Inline?
    ensures chain[1] == EnsureConsistentFields
    ensures chain[3] == DeleteFields([Place])
  {
    [ Inline(InlineBlock.ParsePlace),
      EnsureConsistentFields,
      FingerprintAdd(Sym("fingerprint"), Places.FingerprintFields),
      DeleteFields([Place]) ]
  }

  /** `job`: reads `orig__places`, writes `places__prep_for_cleanup`, with no lookup. */
  function Job(): (job: Steps.Job)
    ensures job.files.sources == ["orig__places"] && job.files.destination == "places__prep_for_cleanup"
    ensures job.files.lookups == [] && job.chain == Xforms()
  {
    Steps.Job(JobFiles(["orig__places"], "places__prep_for_cleanup", []), Xforms())
  }

  /**
   * The destination is the cleanup's default base job; the parser runs first,
   * the fingerprint covers the cleanup's fingerprint fields, and `:place` is
   * deleted by the last step and by no earlier one.
   */
  lemma JobShape()
    ensures Job().files.sources == ["orig__places"]
    ensures Job().files.destination == PlacesCleanup.BaseJob
    ensures Job().chain[0] == Inline(InlineBlock.ParsePlace)
    ensures Job().chain[2] == FingerprintAdd(Sym("fingerprint"), PlacesCleanup.FingerprintFields())
    ensures var chain := Job().chain;
      && chain[|chain| - 1] == DeleteFields([Place])
      && forall i :: 0 <= i < |chain| - 1 ==> !(chain[i].DeleteFields? && Place in chain[i].fields)
  {
  }
}

=== FILE: registry.dfy ===
/**
 * The file registry as an immutable value: entries under fully qualified keys,
 * the populate / transform / freeze phases, and the consistency conditions a
 * registry and its creators' job configs are expected to meet.
 */
module Registry {
  import opened Wrappers
  import opened Rows
  import opened Steps
  import Text

  const KeySeparator := "__"

  datatype Format = Csv | JsonArray

  /** `Owner.method(:name)`: a reference to the method that builds the job writing an entry. */
  datatype CreatorRef = CreatorRef(owner: string, name: string)

  /**
   * A registry entry's hash: the path below the data directory, the creator
   * (absent for a supplied file), `supplied:`, `lookup_on:`, the destination
   * format, the tags and the description.
   */
  datatype Entry = Entry(path: seq<string>, creator: Option<CreatorRef>, supplied: bool,
                         lookupOn: Option<FieldKey>, format: Format, tags: set<string>, desc: string)

  /** One `register` call: the enclosing `namespace` levels, outermost first, and the entry's name. */
  datatype Registration = Registration(namespaces: seq<string>, name: string, entry: Entry)

  /** The fully qualified key: every namespace level, then the name, joined with `__`. */
  function QualifiedKey(namespaces: seq<string>, name: string): (key: string)
    ensures namespaces == [] ==> key == name
    ensures namespaces != [] ==> Text.StartsWith(key, namespaces[0] + KeySeparator)
  {
    var parts := namespaces + [name];
    assert namespaces != [] ==> parts[0] == namespaces[0];
    Text.Join(parts, KeySeparator)
  }

  /** Registering inside one more `namespace` level puts that level and `__` in front of the name. */
  lemma QualifiedKeyNested(outer: seq<string>, level: string, name: string)
    ensures QualifiedKey(outer + [level], name) == QualifiedKey(outer, level) + KeySeparator + name
  {
    Text.JoinSnoc(outer + [level], name, KeySeparator);
  }

  /** One and two namespace levels written out. */
  lemma QualifiedKeyLevels(a: string, b: string, name: string)
    ensures QualifiedKey([a], name) == a + KeySeparator + name
    ensures QualifiedKey([a, b], name) == a + KeySeparator + b + KeySeparator + name
  {
    var sep := KeySeparator;
    assert [a] + [name] == [a, name];
    assert [a, name][1..] == [name];
    assert Text.Join([name], sep) == name;
    assert Text.Join([a, name], sep) == a + sep + name;
    assert [a, b] + [name] == [a, b, name];
    assert [a, b, name][1..] == [b, name];
    assert [b, name][1..] == [name];
    assert Text.Join([b, name], sep) == b + sep + name;
    assert Text.Join([a, b, name], sep) == a + sep + (b + sep + name);
  }

  function Key(r: Registration): string {
    QualifiedKey(r.namespaces, r.name)
  }

  /** Hashes are still being registered, have been turned into entry objects, or are frozen. */
  datatype Phase = Registering | Transformed | Frozen

  datatype Registry = Registry(phase: Phase, entries: map<string, Entry>)

  datatype RegistryError = RegistryFrozen | DuplicateKey(key: string)

  const Empty := Registry(Registering, map[])

  /** `register`: a frozen registry refuses, and so does a key that is already taken. */
  function Register(reg: Registry, r: Registration): (out: Result<Registry, RegistryError>)
    ensures out.Failure? <==> reg.phase == Frozen || Key(r) in reg.entries
    ensures reg.phase == Frozen ==> out == Failure(RegistryFrozen)
    ensures out.Success? ==>
      && out.value.phase == reg.phase
      && out.value.entries.Keys == reg.entries.Keys + {Key(r)}
      && out.value.entries[Key(r)] == r.entry
      && forall k :: k in reg.entries ==> out.value.entries[k] == reg.entries[k]
  {
    if reg.phase == Frozen then Failure(RegistryFrozen)
    else if Key(r) in reg.entries then Failure(DuplicateKey(Key(r)))
    else Success(reg.(entries := reg.entries[Key(r) := r.entry]))
  }

  /** The `register` calls of a block, in order; the first refusal stops the block. */
  function RegisterAll(reg: Registry, rs: seq<Registration>): (out: Result<Registry, RegistryError>)
    ensures rs == [] ==> out == Success(reg)
    ensures rs != [] && reg.phase == Frozen ==> out == Failure(RegistryFrozen)
    ensures out.Success? ==> out.value.phase == reg.phase && reg.entries.Keys <= out.value.entries.Keys
    ensures out.Failure? ==>
      out.error == RegistryFrozen || exists i :: 0 <= i < |rs| && out.error == DuplicateKey(Key(rs[i]))
    decreases |rs|
  {
    if rs == [] then Success(reg)
    else
      var next :- Register(reg, rs[0]);
      RegisterAll(next, rs[1..])
  }

  predicate DistinctKeys(rs: seq<Registration>) {
    forall i, j :: 0 <= i < j < |rs| ==> Key(rs[i]) != Key(rs[j])
  }

  /** No registration in `rs` uses a key in `taken`. */
  predicate Fresh(rs: seq<Registration>, taken: set<string>) {
    forall i :: 0 <= i < |rs| ==> Key(rs[i]) !in taken
  }

  /** The keys of a block of registrations. */
  function KeySet(rs: seq<Registration>): (keys: set<string>)
    ensures forall i :: 0 <= i < |rs| ==> Key(rs[i]) in keys
    decreases |rs|
  {
    if rs == [] then {}
    else
      var rest := KeySet(rs[1..]);
      assert forall i :: 1 <= i < |rs| ==> rs[i] == rs[1..][i - 1];
      {Key(rs[0])} + rest
  }

  /** Every key of a block is the key of one of its registrations. */
  lemma {:induction false} KeySetWitness(rs: seq<Registration>, k: string) returns (i: int)
    requires k in KeySet(rs)
    ensures 0 <= i < |rs| && Key(rs[i]) == k
    decreases |rs|
  {
    if Key(rs[0]) == k {
      i := 0;
    } else {
      var j := KeySetWitness(rs[1..], k);
      i := j + 1;
    }
  }

  /** Distinct and fresh keys: the first is not taken, and the rest are distinct and fresh once it is. */
  lemma DistinctFreshUncons(rs: seq<Registration>, taken: set<string>)
    requires rs != [] && Key(rs[0]) !in taken
    ensures (DistinctKeys(rs) && Fresh(rs, taken)) <==> (DistinctKeys(rs[1..]) && Fresh(rs[1..], taken + {Key(rs[0])}))
  {
    var tail := rs[1..];
    if DistinctKeys(rs) && Fresh(rs, taken) {
      forall i, j | 0 <= i < j < |tail| ensures Key(tail[i]) != Key(tail[j]) {
        assert tail[i] == rs[i + 1] && tail[j] == rs[j + 1];
      }
      forall i | 0 <= i < |tail| ensures Key(tail[i]) !in taken + {Key(rs[0])} {
        assert tail[i] == rs[i + 1];
      }
    }
    if DistinctKeys(tail) && Fresh(tail, taken + {Key(rs[0])}) {
      forall i, j | 0 <= i < j < |rs| ensures Key(rs[i]) != Key(rs[j]) {
        assert rs[j] == tail[j - 1];
        if i > 0 {
          assert rs[i] == tail[i - 1];
        }
      }
      forall i | 0 <= i < |rs| ensures Key(rs[i]) !in taken {
        if i > 0 {
          assert rs[i] == tail[i - 1];
        }
      }
    }
  }

  /**
   * A block of registrations on an unfrozen registry succeeds exactly when
   * its keys are pairwise distinct and not yet taken.
   */
  lemma {:induction false} RegisterAllSucceeds(reg: Registry, rs: seq<Registration>)
    requires reg.phase != Frozen
    ensures RegisterAll(reg, rs).Success? <==> DistinctKeys(rs) && Fresh(rs, reg.entries.Keys)
    decreases |rs|
  {
    if rs != [] && Key(rs[0]) !in reg.entries {
      var next := Register(reg, rs[0]).value;
      RegisterAllSucceeds(next, rs[1..]);
      DistinctFreshUncons(rs, reg.entries.Keys);
    }
  }

  /**
   * After a successful block the registry holds every earlier entry and each
   * registration's entry under its key, and no other key.
   */
  lemma {:induction false} RegisterAllContents(reg: Registry, rs: seq<Registration>)
    requires RegisterAll(reg, rs).Success?
    ensures var out := RegisterAll(reg, rs).value;
      && out.phase == reg.phase
      && out.entries.Keys == reg.entries.Keys + KeySet(rs)
      && (forall i :: 0 <= i < |rs| ==> out.entries[Key(rs[i])] == rs[i].entry)
      && (forall k :: k in reg.entries ==> out.entries[k] == reg.entries[k])
    decreases |rs|
  {
    if rs != [] {
      var next := Register(reg, rs[0]).value;
      var tail := rs[1..];
      RegisterAllContents(next, tail);
      var out := RegisterAll(reg, rs).value;
      assert out == RegisterAll(next, tail).value;
      forall i | 0 <= i < |rs| ensures out.entries[Key(rs[i])] == rs[i].entry {
        if i > 0 {
          assert rs[i] == tail[i - 1];
        } else if exists j :: 0 <= j < |tail| && Key(tail[j]) == Key(rs[0]) {
          var j :| 0 <= j < |tail| && Key(tail[j]) == Key(rs[0]);
          RegisterAllSucceeds(next, tail);
          assert Key(rs[0]) in next.entries;
        }
      }
    }
  }

  /** Two maps over the keys of a block that agree on every registration's key are equal. */
  lemma SameEntries(m: map<string, Entry>, expected: map<string, Entry>, rs: seq<Registration>)
    requires m.Keys == KeySet(rs) && expected.Keys == KeySet(rs)
    requires forall i :: 0 <= i < |rs| ==> m[Key(rs[i])] == rs[i].entry && expected[Key(rs[i])] == rs[i].entry
    ensures m == expected
  {
    forall k | k in expected ensures m[k] == expected[k] {
      var i := KeySetWitness(rs, k);
    }
  }

  /** A block with distinct keys on an empty registry builds exactly the map from each key to its entry. */
  lemma RegisterAllFromEmpty(rs: seq<Registration>, expected: map<string, Entry>)
    requires DistinctKeys(rs)
    requires KeySet(rs) == expected.Keys
    requires forall i :: 0 <= i < |rs| ==> expected[Key(rs[i])] == rs[i].entry
    ensures RegisterAll(Empty, rs).Success?
    ensures RegisterAll(Empty, rs).value == Registry(Registering, expected)
  {
    BuildsExpected(Empty, rs, expected);
  }

  /** `RegisterAllFromEmpty` for any empty registry still open for registration. */
  lemma BuildsExpected(reg: Registry, rs: seq<Registration>, expected: map<string, Entry>)
    requires reg.phase == Registering && reg.entries == map[]
    requires DistinctKeys(rs)
    requires KeySet(rs) == expected.Keys
    requires forall i :: 0 <= i < |rs| ==> expected[Key(rs[i])] == rs[i].entry
    ensures RegisterAll(reg, rs).Success?
    ensures RegisterAll(reg, rs).value == Registry(Registering, expected)
  {
    assert Fresh(rs, reg.entries.Keys);
    RegisterAllSucceeds(reg, rs);
    RegisterAllContents(reg, rs);
    var out := RegisterAll(reg, rs).value;
    SameEntries(out.entries, expected, rs);
  }

  /** `transform`: the registered hashes become entry objects. */
  function Transform(reg: Registry): (out: Registry)
    ensures out.entries == reg.entries
    ensures reg.phase == Registering ==> out.phase == Transformed
    ensures reg.phase != Registering ==> out.phase == reg.phase
  {
    if reg.phase == Registering then reg.(phase := Transformed) else reg
  }

  /** `freeze`: from here on the registry is read-only. */
  function Freeze(reg: Registry): (out: Registry)
    ensures out.entries == reg.entries && out.phase == Frozen
  {
    reg.(phase := Frozen)
  }

  /** Once frozen, no registration gets through and the registry keeps its entries. */
  lemma FrozenIsReadOnly(reg: Registry, rs: seq<Registration>)
    requires rs != []
    ensures RegisterAll(Freeze(reg), rs) == Failure(RegistryFrozen)
  {
  }

  /** A supplied entry is exactly one without a creator. */
  predicate SuppliedIffNoCreator(entries: map<string, Entry>) {
    forall k :: k in entries ==> (entries[k].supplied <==> entries[k].creator.None?)
  }

  /**
   * Consistency of a registry with the job configs its creators build
   * (`jobs` maps a key to the `files:` hash of the job that writes it).
   */
  predicate DestinationsMatch(jobs: map<string, JobFiles>) {
    forall k :: k in jobs ==> jobs[k].destination == k
  }

  predicate ReferencesExist(entries: map<string, Entry>, jobs: map<string, JobFiles>) {
    forall k :: k in jobs ==> Dependencies(jobs[k]) <= entries.Keys
  }

  /** Every key used as a lookup declares the column it is looked up on. */
  predicate LookupsDeclared(entries: map<string, Entry>, jobs: map<string, JobFiles>) {
    forall k, i :: k in jobs && 0 <= i < |jobs[k].lookups| ==>
      jobs[k].lookups[i] in entries && entries[jobs[k].lookups[i]].lookupOn.Some?
  }

  /** `d` is read by the job writing `k`. */
  predicate DependsOn(jobs: map<string, JobFiles>, k: string, d: string) {
    k in jobs && d in Dependencies(jobs[k])
  }

  /** A chain of keys each of which is read by the job writing the one before it. */
  predicate IsPath(jobs: map<string, JobFiles>, p: seq<string>) {
    forall i :: 0 <= i < |p| - 1 ==> DependsOn(jobs, p[i], p[i + 1])
  }

  /** A ranking under which every job reads only keys of lower rank. */
  ghost predicate Ranked(jobs: map<string, JobFiles>, rank: map<string, nat>) {
    forall k, d :: DependsOn(jobs, k, d) ==> k in rank && d in rank && rank[d] < rank[k]
  }

  /** Along a dependency path the rank strictly falls. */
  lemma {:induction false} RankFallsAlongPath(jobs: map<string, JobFiles>, rank: map<string, nat>, p: seq<string>)
    requires Ranked(jobs, rank) && IsPath(jobs, p) && |p| >= 2
    ensures p[0] in rank && p[|p| - 1] in rank && rank[p[|p| - 1]] < rank[p[0]]
    decreases |p|
  {
    assert DependsOn(jobs, p[0], p[1]);
    assert p[0] in rank && p[1] in rank && rank[p[1]] < rank[p[0]];
    if |p| > 2 {
      var tail := p[1..];
      forall i | 0 <= i < |tail| - 1 ensures DependsOn(jobs, tail[i], tail[i + 1]) {
        assert tail[i] == p[i + 1] && tail[i + 1] == p[i + 2];
      }
      RankFallsAlongPath(jobs, rank, tail);
      assert tail[0] == p[1] && tail[|tail| - 1] == p[|p| - 1];
    }
  }

  /** A ranked dependency graph has no cycle: no key is, directly or indirectly, read by its own job. */
  lemma RankedIsAcyclic(jobs: map<string, JobFiles>, rank: map<string, nat>, p: seq<string>)
    requires Ranked(jobs, rank) && IsPath(jobs, p) && |p| >= 2
    ensures p[0] != p[|p| - 1]
  {
    RankFallsAlongPath(jobs, rank, p);
  }
}

=== FILE: registry_data.dfy ===
/**
 * `KeProject::RegistryData`: the project's five registry entries, the jobs
 * their creators build, and the consistency of the two.
 */
module RegistryData {
  import opened Wrappers
  import opened Rows
  import opened Steps
  import opened Registry
  import SourceSystemLocations
  import TargetSystemLocations
  import LocationsClean
  import LocationsCleanRev
  import LocationsToJson
  import EverythingExploded

  const SourceSystem := "KeProject::SourceSystem::Locations"
  const TargetSystem := "KeProject::TargetSystem::Locations"

  const LocationsKey := "locations"
  const OrigLocationsKey := "orig__locations"
  const CleanKey := "auth__loc__clean"
  const CleanRevKey := "auth__loc__clean_rev"
  const JsonKey := "auth__loc__json"

  const LocationsEntry := Entry(["for_import", "locations.csv"], Some(CreatorRef(TargetSystem, "for_import")), false,
                                None, Csv, {"importable", "authority", "location"},
                                "Final location authority records for import into target system")
  const OrigLocationsEntry := Entry(["source_system_data", "locations.csv"], None, true,
                                    None, Csv, {"orig", "authority", "location"},
                                    "Original source system locations table")
  const CleanEntry := Entry(["working", "loc_clean.csv"], Some(CreatorRef(SourceSystem, "clean")), false,
                            None, Csv, {"authority", "location"},
                            "Location values from source system, cleaned up for further mapping")
  const CleanRevEntry := Entry(["working", "loc_clean_and_reversed.csv"], Some(CreatorRef(SourceSystem, "clean_reverse")), false,
                               Some(Sym("location_id")), Csv, {"authority", "location"},
                               "Location values from source system, cleaned up for further mapping")
  const JsonEntry := Entry(["endpoint", "locations.json"], Some(CreatorRef(TargetSystem, "for_endpoint")), false,
                           None, JsonArray, {"json", "authority", "location"},
                           "Version of final locations in JSON")

  /**
   * `register_files`: the `register` calls in order, with their enclosing
   * namespaces. Only `orig`'s entry is supplied; every other names a creator,
   * and only `clean_rev` can serve as a lookup.
   */
  function Registrations(): (rs: seq<Registration>)
    ensures |rs| == 5
    ensures forall i :: 0 <= i < |rs| ==> (rs[i].entry.supplied <==> i == 1)
    ensures forall i :: 0 <= i < |rs| ==> (rs[i].entry.creator.None? <==> rs[i].entry.supplied)
    ensures forall i :: 0 <= i < |rs| ==> (rs[i].entry.lookupOn.Some? <==> i == 3)
  {
    [ Registration([], "locations", LocationsEntry),
      Registration(["orig"], "locations", OrigLocationsEntry),
      Registration(["auth", "loc"], "clean", CleanEntry),
      Registration(["auth", "loc"], "clean_rev", CleanRevEntry),
      Registration(["auth", "loc"], "json", JsonEntry) ]
  }

  /** The qualified keys come out as the namespaces joined with `__`. */
  lemma RegisteredKeys()
    ensures var rs := Registrations();
      && Key(rs[0]) == LocationsKey
      && Key(rs[1]) == OrigLocationsKey
      && Key(rs[2]) == CleanKey
      && Key(rs[3]) == CleanRevKey
      && Key(rs[4]) == JsonKey
  {
    OneLevelKey("orig", "locations", OrigLocationsKey);
    TwoLevelKey("auth", "loc", "clean", CleanKey);
    TwoLevelKey("auth", "loc", "clean_rev", CleanRevKey);
    TwoLevelKey("auth", "loc", "json", JsonKey);
  }

  /** A key under one namespace level. */
  lemma OneLevelKey(a: string, name: string, key: string)
    requires a + KeySeparator + name == key
    ensures QualifiedKey([a], name) == key
  {
    QualifiedKeyLevels(a, "", name);
  }

  /** A key under two namespace levels. */
  lemma TwoLevelKey(a: string, b: string, name: string, key: string)
    requires a + KeySeparator + b + KeySeparator + name == key
    ensures QualifiedKey([a, b], name) == key
  {
    QualifiedKeyLevels(a, b, name);
  }

  /** The registry once populated: each key with its entry. */
  function Entries(): (e: map<string, Entry>)
    ensures SuppliedIffNoCreator(e)
    ensures forall k :: k in e && e[k].supplied ==> k == OrigLocationsKey
    ensures forall k :: k in e && e[k].lookupOn.Some? ==> k == CleanRevKey
    ensures forall k :: k in e && e[k].format == JsonArray ==> k == JsonKey
  {
    map[LocationsKey := LocationsEntry, OrigLocationsKey := OrigLocationsEntry, CleanKey := CleanEntry,
        CleanRevKey := CleanRevEntry, JsonKey := JsonEntry]
  }

  /**
   * `register`: populate, then `transform`, then `freeze`. A successful run
   * ends frozen, holding exactly the registered keys, each with its entry.
   */
  function Register(): (r: Result<Registry, RegistryError>)
    ensures r.Success? ==> r.value.phase == Frozen && r.value.entries.Keys == KeySet(Registrations())
    ensures r.Success? ==> forall i :: 0 <= i < |Registrations()| ==>
      r.value.entries[Key(Registrations()[i])] == Registrations()[i].entry
  {
    var populated :- RegisterAll(Empty, Registrations());
    RegisterAllContents(Empty, Registrations());
    Success(Freeze(Transform(populated)))
  }

  /** The five keys are pairwise distinct. */
  lemma KeysDistinct()
    ensures DistinctKeys(Registrations())
  {
    RegisteredKeys();
    var rs := Registrations();
    var ks := [LocationsKey, OrigLocationsKey, CleanKey, CleanRevKey, JsonKey];
    assert forall i :: 0 <= i < 5 ==> Key(rs[i]) == ks[i];
    assert ks[0] != ks[1] && ks[0] != ks[2] && ks[0] != ks[3] && ks[0] != ks[4];
    assert ks[1][0] != ks[2][0] && ks[1][0] != ks[3][0] && ks[1][0] != ks[4][0];
    assert |ks[2]| != |ks[3]|;
    assert ks[2][11] != ks[4][11] && ks[3][11] != ks[4][11];
  }

  /** The registered keys are exactly the keys of `Entries`. */
  lemma KeySetOfRegistrations()
    ensures KeySet(Registrations()) == Entries().Keys
  {
    RegisteredKeys();
    var rs := Registrations();
    var keys := KeySet(rs);
    forall k | k in keys ensures k in Entries() {
      var i := KeySetWitness(rs, k);
      assert i == 0 || i == 1 || i == 2 || i == 3 || i == 4;
    }
    assert Key(rs[0]) in keys && Key(rs[1]) in keys && Key(rs[2]) in keys && Key(rs[3]) in keys && Key(rs[4]) in keys;
  }

  /** Each registration's entry is the one `Entries` holds under its key. */
  lemma EntriesOfRegistrations()
    ensures forall i :: 0 <= i < |Registrations()| ==>
      Key(Registrations()[i]) in Entries() && Entries()[Key(Registrations()[i])] == Registrations()[i].entry
  {
    RegisteredKeys();
  }

  /** Registration succeeds and leaves a frozen registry holding exactly the five entries. */
  lemma RegisterSucceeds()
    ensures Register() == Success(Registry(Frozen, Entries()))
  {
    KeysDistinct();
    KeySetOfRegistrations();
    EntriesOfRegistrations();
    RegisterAllFromEmpty(Registrations(), Entries());
  }

  /** The `files:` hash of the job a creator reference builds, when it names one of the project's creators. */
  function CreatorFiles(c: CreatorRef): Option<JobFiles> {
    if c == CreatorRef(TargetSystem, "for_import") then Some(TargetSystemLocations.ForImportConfig())
    else if c == CreatorRef(TargetSystem, "for_endpoint") then Some(TargetSystemLocations.ForEndpointConfig())
    else if c == CreatorRef(SourceSystem, "clean") then Some(SourceSystemLocations.Clean().files)
    else if c == CreatorRef(SourceSystem, "clean_reverse") then Some(SourceSystemLocations.CleanReverse().files)
    else None
  }

  /** The job config behind every entry that has a creator. */
  function Jobs(): (jobs: map<string, JobFiles>)
    ensures DestinationsMatch(jobs)
    ensures forall k :: k in jobs ==> k in Entries() && Entries()[k].creator.Some?
  {
    map[LocationsKey := TargetSystemLocations.ForImportConfig(),
        CleanKey := SourceSystemLocations.Clean().files,
        CleanRevKey := SourceSystemLocations.CleanReverse().files,
        JsonKey := TargetSystemLocations.ForEndpointConfig()]
  }

  /** `Jobs` is what the registered creators build: exactly the entries with a creator, each resolved. */
  lemma JobsAreTheCreators()
    ensures forall k :: k in Entries() ==> (k in Jobs() <==> Entries()[k].creator.Some?)
    ensures forall k :: k in Jobs() ==> k in Entries() && CreatorFiles(Entries()[k].creator.value) == Some(Jobs()[k])
  {
  }

  /**
   * The registry is consistent with its creators: supplied means no creator,
   * each creator writes its own key, every key read is registered, and every
   * lookup declares `lookup_on`.
   */
  lemma RegistryConsistent()
    ensures SuppliedIffNoCreator(Entries())
    ensures DestinationsMatch(Jobs())
    ensures ReferencesExist(Entries(), Jobs())
    ensures LookupsDeclared(Entries(), Jobs())
  {
    SuppliedEntries();
    JobDestinations();
    JobReferences();
    JobLookups();
  }

  /** Only `orig__locations` is supplied, and only it has no creator. */
  lemma SuppliedEntries()
    ensures SuppliedIffNoCreator(Entries())
  {
  }

  /** Each creator's job writes the key it is registered under. */
  lemma JobDestinations()
    ensures DestinationsMatch(Jobs())
  {
  }

  /** Every source and lookup a creator's job reads is registered. */
  lemma JobReferences()
    ensures ReferencesExist(Entries(), Jobs())
  {
    assert Dependencies(Jobs()[LocationsKey]) == {CleanKey, CleanRevKey};
    assert Dependencies(Jobs()[CleanKey]) == {OrigLocationsKey};
    assert Dependencies(Jobs()[CleanRevKey]) == {OrigLocationsKey};
    assert Dependencies(Jobs()[JsonKey]) == {LocationsKey};
  }

  /** Every key used as a lookup declares `lookup_on`. */
  lemma JobLookups()
    ensures LookupsDeclared(Entries(), Jobs())
  {
  }

  /**
   * Only `auth__loc__clean_rev` declares `lookup_on`, it is the only key any
   * creator uses as a lookup, and its column is the merge's key column.
   */
  lemma LookupOnMatchesKeycolumn(today: string)
    ensures forall k :: k in Entries() ==> (Entries()[k].lookupOn.Some? <==> k == CleanRevKey)
    ensures forall k, i :: k in Jobs() && 0 <= i < |Jobs()[k].lookups| ==> Jobs()[k].lookups[i] == CleanRevKey
    ensures var merge := TargetSystemLocations.ForImportLogic(today)[0];
      merge.lookup == CleanRevKey && Entries()[CleanRevKey].lookupOn == Some(merge.keycolumn)
  {
  }

  /** A rank for each key: every job reads only keys of lower rank. */
  function Rank(): map<string, nat> {
    map[OrigLocationsKey := 0, CleanKey := 1, CleanRevKey := 1, LocationsKey := 2, JsonKey := 3]
  }

  /**
   * The dependency graph is acyclic, and the supplied `orig__locations` is
   * the only registered key no creator writes.
   */
  lemma DependencyGraphAcyclic(p: seq<string>)
    requires IsPath(Jobs(), p) && |p| >= 2
    ensures p[0] != p[|p| - 1]
    ensures Ranked(Jobs(), Rank())
    ensures forall k :: k in Entries() ==> (k !in Jobs() <==> k == OrigLocationsKey)
  {
    DependencyGraphRanked();
    RankedIsAcyclic(Jobs(), Rank(), p);
  }

  /**
   * The path-free half: `Rank` ranks every dependency below the job that
   * reads it, and `orig__locations` is the only registered key no creator writes.
   */
  lemma DependencyGraphRanked()
    ensures Ranked(Jobs(), Rank())
    ensures forall k :: k in Entries() ==> (k !in Jobs() <==> k == OrigLocationsKey)
  {
    RegistryConsistent();
    forall k, d | DependsOn(Jobs(), k, d)
      ensures k in Rank() && d in Rank() && Rank()[d] < Rank()[k]
    {
    }
  }

  /**
   * Only the two cleaned location files live under `working`, so a backup of
   * the working directory never moves the supplied file, the import file or
   * the JSON endpoint file.
   */
  lemma WorkingHoldsOnlyIntermediates()
    ensures forall k :: k in Entries() ==> (Entries()[k].path[0] == "working" <==> k == CleanKey || k == CleanRevKey)
  {
  }

  /**
   * Job configs can name keys nobody registered: the three `Jobs::Locations`
   * jobs read and write `locations__*` keys, and `EverythingExploded.foo`
   * names two keys, none of them registered.
   */
  lemma UnregisteredKeys()
    ensures LocationsClean.Job().files.destination !in Entries()
    ensures LocationsCleanRev.Job().files.destination !in Entries()
    ensures LocationsToJson.Job().files.destination !in Entries()
    ensures forall i :: 0 <= i < |LocationsToJson.Job().files.sources| ==> LocationsToJson.Job().files.sources[i] !in Entries()
    ensures forall k :: k in Dependencies(EverythingExploded.Foo()) ==> k !in Entries()
    ensures EverythingExploded.Foo().destination !in Entries()
  {
  }
}

=== FILE: rows.dfy ===
/**
 * Rows as the project's transforms see them: a Ruby hash from field keys to
 * string-or-nil values.
 */
module Rows {
  import opened Wrappers
  import Text

  /**
   * A hash key. Fields read from CSV are symbols (`:loc_name`); the place
   * parser writes plain string keys, and `row[nil]` when a segment is empty.
   * A symbol and a string with the same letters are different keys.
   */
  datatype FieldKey = Sym(name: string) | Str(text: string) | NilKey

  /** A cell: `None` is Ruby's `nil`. */
  type Value = Option<string>

  type Row = map<FieldKey, Value>

  /** `row.fetch(key, nil)` and `row[key]`: a missing key reads as `nil`. */
  function Fetch(row: Row, key: FieldKey): (v: Value)
    ensures key !in row ==> v == None
    ensures key in row ==> v == row[key]
  {
    if key in row then row[key] else None
  }

  /** ActiveSupport's `blank?` on a cell: `nil`, or a blank string. */
  predicate Blank(v: Value) {
    v.None? || Text.IsBlank(v.value)
  }
}

=== FILE: seqs.dfy ===
/** Order-preserving selection over sequences: Ruby's `Array#select` and `Array#-`. */
module Seqs {

  /** `a` can be obtained from `b` by deleting elements, keeping the rest in order. */
  predicate IsSubsequence<T(==)>(a: seq<T>, b: seq<T>)
    decreases |b|
  {
    if a == [] then true
    else if b == [] then false
    else if a[0] == b[0] then IsSubsequence(a[1..], b[1..])
    else IsSubsequence(a, b[1..])
  }

  /** `Array#select { |x| keep(x) }`: the kept elements, in their original order. */
  function Filter<T(==)>(s: seq<T>, keep: T -> bool): (r: seq<T>)
    ensures |r| <= |s|
    ensures forall i :: 0 <= i < |r| ==> r[i] in s && keep(r[i])
    ensures forall i :: 0 <= i < |s| && keep(s[i]) ==> s[i] in r
    ensures IsSubsequence(r, s)
  {
    if s == [] then []
    else if keep(s[0]) then [s[0]] + Filter(s[1..], keep)
    else Filter(s[1..], keep)
  }

  /** Selection keeps every kept element as many times as it occurs, and no other element. */
  lemma {:induction false} FilterCounts<T>(s: seq<T>, keep: T -> bool)
    ensures forall x :: multiset(Filter(s, keep))[x] == if keep(x) then multiset(s)[x] else 0
    decreases |s|
  {
    if s != [] {
      FilterCounts(s[1..], keep);
      assert s == [s[0]] + s[1..];
    }
  }

  /** Selecting with a test every element passes keeps the whole sequence. */
  lemma {:induction false} FilterKeepsAll<T>(s: seq<T>, keep: T -> bool)
    requires forall i :: 0 <= i < |s| ==> keep(s[i])
    ensures Filter(s, keep) == s
    decreases |s|
  {
    if s != [] {
      assert keep(s[0]);
      FilterKeepsAll(s[1..], keep);
      assert [s[0]] + s[1..] == s;
    }
  }

  /** Selecting a second time with the same test changes nothing. */
  lemma {:induction false} FilterIdempotent<T>(s: seq<T>, keep: T -> bool)
    ensures Filter(Filter(s, keep), keep) == Filter(s, keep)
    decreases |s|
  {
    if s != [] {
      FilterIdempotent(s[1..], keep);
      if keep(s[0]) {
        assert ([s[0]] + Filter(s[1..], keep))[1..] == Filter(s[1..], keep);
      }
    }
  }
}

=== FILE: source_system_locations.dfy ===
/**
 * `KeProject::SourceSystem::Locations`: two jobs over the supplied locations
 * table that share one chain builder, `clean_logic(direction:)`.
 */
module SourceSystemLocations {
  import opened Rows
  import opened Steps

  const RenameLocId: Step := RenameField(Sym("loc_id"), Sym("location_id"))
  const DeleteUpdatedDate: Step := DeleteFields([Sym("updated_date")])

  /**
   * `clean_logic(direction:)`: rename `loc_id`, delete `updated_date`, and only
   * for the `:reversed` direction append a reverser that writes a new field.
   * The direction is any symbol, given by its name.
   */
  function CleanLogic(direction: string): (chain: seq<Step>)
    ensures |chain| >= 2
    ensures chain[..2] == [RenameLocId, DeleteUpdatedDate]
    ensures |chain| == 3 <==> direction == "reversed"
    ensures direction != "reversed" ==> |chain| == 2
    ensures direction == "reversed" ==> chain[2] == ReverseLocName(false)
  {
    [RenameLocId, DeleteUpdatedDate] + (if direction == "reversed" then [ReverseLocName(false)] else [])
  }

  /** `clean`: the supplied locations, cleaned, into `auth__loc__clean`; no step reverses a name. */
  function Clean(): (job: Job)
    ensures job.files.sources == ["orig__locations"] && job.files.destination == "auth__loc__clean"
    ensures job.files.lookups == []
    ensures forall i :: 0 <= i < |job.chain| ==> !job.chain[i].ReverseLocName?
  {
    Job(JobFiles(["orig__locations"], "auth__loc__clean", []), CleanLogic("direct"))
  }

  /** `clean_reverse`: the same, plus the reversed name, into `auth__loc__clean_rev`. */
  function CleanReverse(): (job: Job)
    ensures job.files.sources == ["orig__locations"] && job.files.destination == "auth__loc__clean_rev"
    ensures job.files.lookups == []
    ensures |job.chain| > 0 && job.chain[|job.chain| - 1] == ReverseLocName(false)
  {
    Job(JobFiles(["orig__locations"], "auth__loc__clean_rev", []), CleanLogic("reversed"))
  }

  /**
   * Both jobs read only the supplied locations and write different keys; the
   * reversed chain is the direct chain followed by exactly one reverser in
   * new-field mode.
   */
  lemma CleanJobsRelation()
    ensures Clean().files.sources == CleanReverse().files.sources == ["orig__locations"]
    ensures Clean().files.destination == "auth__loc__clean"
    ensures CleanReverse().files.destination == "auth__loc__clean_rev"
    ensures CleanReverse().chain == Clean().chain + [ReverseLocName(false)]
  {
  }
}

=== FILE: steps.dfy ===
/**
 * Job definitions as data. A job segment (`Kiba.job_segment do ... end`) is an
 * ordered chain of step descriptors; the kiba-extend transforms appear only as
 * descriptors carrying the arguments the project passes them.
 */
module Steps {
  import opened Rows

  /** The project's one-off `transform do |row| ... end` blocks. */
  datatype InlineBlock =
    | SkipOffsiteElseDowncase   // lower-cases `:loc_name` unless the location is offsite
    | DowncaseReversedLocation  // lower-cases a non-blank `:reversed_location`
    | ParsePlace                // spreads the `:place` string over string-keyed fields

  datatype FilterAction = Reject | Keep

  datatype Step =
      // the project's own transform class
    | ReverseLocName(replace: bool)
    | Inline(block: InlineBlock)
      // kiba-extend transforms, with the arguments the project passes
    | RenameField(from: FieldKey, to: FieldKey)
    | DeleteFields(fields: seq<FieldKey>)
    | ConstantValue(target: FieldKey, value: string)
    | ConstantValues(constants: seq<(FieldKey, string)>)
    | MultiRowLookup(lookup: string, keycolumn: FieldKey, fieldmap: seq<(FieldKey, FieldKey)>,
                     constantmap: seq<(FieldKey, string)>)
    | FieldEqualTo(action: FilterAction, field: FieldKey, value: string)
    | EnsureConsistentFields
    | FingerprintAdd(target: FieldKey, fields: seq<FieldKey>)

  /** The `files:` hash of a job; every entry is a registry key. */
  datatype JobFiles = JobFiles(sources: seq<string>, destination: string, lookups: seq<string>)

  /** `Kiba::Extend::Jobs::Job.new(files:, transformer:)`. */
  datatype Job = Job(files: JobFiles, chain: seq<Step>)

  /** The registry keys a job reads: its sources and its lookups. */
  function Dependencies(files: JobFiles): (deps: set<string>)
    ensures forall i :: 0 <= i < |files.sources| ==> files.sources[i] in deps
    ensures forall i :: 0 <= i < |files.lookups| ==> files.lookups[i] in deps
    ensures forall k :: k in deps ==> k in files.sources || k in files.lookups
  {
    set k | k in files.sources + files.lookups
  }
}

=== FILE: target_system_locations.dfy ===
/**
 * `KeProject::TargetSystem::Locations`: `for_import` merges the reversed names
 * into the cleaned locations; `for_endpoint` turns that result into JSON-bound
 * rows with a lower-cased `:reversed_location`.
 */
module TargetSystemLocations {
  import opened Wrappers
  import opened Rows
  import opened Steps
  import Text
  import LocNameReverser

  const ReversedLocation: FieldKey := Sym("reversed_location")
  const LocationId: FieldKey := Sym("location_id")

  /** `for_import_config`: the cleaned locations in, the reversed names as the one lookup. */
  function ForImportConfig(): (files: JobFiles)
    ensures files.sources == ["auth__loc__clean"] && files.destination == "locations"
    ensures files.lookups == ["auth__loc__clean_rev"]
  {
    JobFiles(["auth__loc__clean"], "locations", ["auth__loc__clean_rev"])
  }

  /**
   * `for_import_logic`: a `MultiRowLookup` keyed on `:location_id` that copies
   * the lookup's `:loc_name_reversed` into `:reversed_location` and stamps
   * today's date, then the deletion of `:location_id`. `today` stands for
   * `Date.today.to_s`.
   */
  function ForImportLogic(today: string): (chain: seq<Step>)
    ensures |chain| == 2
    ensures chain[0].MultiRowLookup? && chain[0].lookup == "auth__loc__clean_rev" && chain[0].keycolumn == LocationId
    ensures chain[0].fieldmap == [(ReversedLocation, Sym("loc_name_reversed"))]
    ensures chain[0].constantmap == [(Sym("update_date"), today)]
    ensures chain[1] == DeleteFields([chain[0].keycolumn])
  {
    [ MultiRowLookup("auth__loc__clean_rev", LocationId,
                     [(ReversedLocation, Sym("loc_name_reversed"))],
                     [(Sym("update_date"), today)]),
      DeleteFields([LocationId]) ]
  }

  /** `for_import`: the merge reads a lookup its own files declare. */
  function ForImport(today: string): (job: Job)
    ensures job.files == ForImportConfig() && job.chain == ForImportLogic(today)
    ensures job.chain[0].lookup in job.files.lookups
  {
    Job(ForImportConfig(), ForImportLogic(today))
  }

  /** `for_endpoint_config`: reads `for_import`'s output. */
  function ForEndpointConfig(): (files: JobFiles)
    ensures files.sources == [ForImportConfig().destination]
    ensures files.destination == "auth__loc__json" && files.lookups == []
  {
    JobFiles(["locations"], "auth__loc__json", [])
  }

  /** `for_endpoint_logic`: the constant `data_source`, then the inline block. */
  function ForEndpointLogic(): (chain: seq<Step>)
    ensures |chain| == 2
    ensures chain[0] == ConstantValue(Sym("data_source"), "source system")
    ensures chain[1] == Inline(InlineBlock.DowncaseReversedLocation)
  {
    [ConstantValue(Sym("data_source"), "source system"), Inline(InlineBlock.DowncaseReversedLocation)]
  }

  /** `for_endpoint`: reads what `for_import` writes, on any day. */
  function ForEndpoint(): (job: Job)
    ensures job.files == ForEndpointConfig() && job.chain == ForEndpointLogic()
    ensures forall today :: job.files.sources == [ForImport(today).files.destination]
  {
    Job(ForEndpointConfig(), ForEndpointLogic())
  }

  /**
   * The inline block of `for_endpoint_logic`: a blank or missing
   * `:reversed_location` leaves the row as it is; otherwise that field is
   * lower-cased. The row is never dropped and no other field changes.
   */
  function DowncaseReversedLocation(row: Row): (r: Row)
    ensures Blank(Fetch(row, ReversedLocation)) ==> r == row
    ensures !Blank(Fetch(row, ReversedLocation)) ==>
      r == row[ReversedLocation := Some(Text.Downcase(Fetch(row, ReversedLocation).value))]
    ensures r - {ReversedLocation} == row - {ReversedLocation}
    ensures r.Keys == row.Keys
  {
    var val := Fetch(row, ReversedLocation);
    if Blank(val) then row else row[ReversedLocation := Some(Text.Downcase(val.value))]
  }

  /** Applying the block twice is applying it once. */
  lemma DowncaseReversedLocationIdempotent(row: Row)
    ensures DowncaseReversedLocation(DowncaseReversedLocation(row)) == DowncaseReversedLocation(row)
  {
    var val := Fetch(row, ReversedLocation);
    if !Blank(val) {
      Text.DowncasePreservesBlank(val.value);
      Text.DowncaseIdempotent(val.value);
    }
  }

  /**
   * The two jobs chain: `for_endpoint` reads what `for_import` writes. The
   * merge copies exactly the field a new-field reverser writes, and the key
   * column is deleted right after the merge.
   */
  lemma ImportFeedsEndpoint(today: string)
    ensures ForEndpointConfig().sources == [ForImportConfig().destination]
    ensures var merge := ForImportLogic(today)[0];
      && merge.MultiRowLookup?
      && merge.lookup in ForImportConfig().lookups
      && merge.fieldmap == [(ReversedLocation, LocNameReverser.Target(LocNameReverser.Reverser(false)))]
      && ForImportLogic(today)[1] == DeleteFields([merge.keycolumn])
  {
  }
}

=== FILE: text.dfy ===
/**
 * The Ruby `String` operations the project's transforms rely on, over `seq<char>`:
 * `reverse`, `downcase` (ASCII letters only), ActiveSupport's `blank?`,
 * `delete_prefix`, `split` with a literal separator, and `join`.
 */
module Text {

  /** `String#reverse`: the characters in the opposite order. */
  function Reverse(s: string): (r: string)
    ensures |r| == |s|
    ensures forall i :: 0 <= i < |s| ==> r[i] == s[|s| - 1 - i]
  {
    if s == [] then [] else Reverse(s[1..]) + [s[0]]
  }

  /** Reversal is an involution. */
  lemma ReverseInvolution(s: string)
    ensures Reverse(Reverse(s)) == s
  {
    var r := Reverse(Reverse(s));
    assert forall i :: 0 <= i < |s| ==> r[i] == s[i];
  }

  /**
   * The characters of Ruby's `[[:space:]]` class on a UTF-8 string (the Unicode
   * White_Space property), which is what ActiveSupport's `String#blank?` matches.
   */
  predicate IsSpace(c: char) {
    || ('\t' <= c <= '\r')
    || c == ' '
    || c == '\U{0085}'
    || c == '\U{00A0}'
    || c == '\U{1680}'
    || ('\U{2000}' <= c <= '\U{200A}')
    || c == '\U{2028}'
    || c == '\U{2029}'
    || c == '\U{202F}'
    || c == '\U{205F}'
    || c == '\U{3000}'
  }

  /** ActiveSupport's `String#blank?`: empty, or whitespace only. */
  predicate IsBlank(s: string) {
    forall i :: 0 <= i < |s| ==> IsSpace(s[i])
  }

  /** Reversing a string neither creates nor removes non-space characters. */
  lemma ReversePreservesBlank(s: string)
    ensures IsBlank(Reverse(s)) <==> IsBlank(s)
  {
    var r := Reverse(s);
    if IsBlank(r) {
      forall i | 0 <= i < |s| ensures IsSpace(s[i]) {
        assert s[i] == r[|s| - 1 - i];
      }
    }
  }

  predicate IsAsciiUpper(c: char) {
    'A' <= c <= 'Z'
  }

  function DowncaseChar(c: char): (d: char)
    ensures !IsAsciiUpper(d)
  {
    if IsAsciiUpper(c) then (c as int + ('a' as int - 'A' as int)) as char else c
  }

  /**
   * `String#downcase` restricted to ASCII: every upper-case ASCII letter becomes
   * its lower-case partner, every other character is kept.
   */
  function Downcase(s: string): (r: string)
    ensures |r| == |s|
    ensures forall i :: 0 <= i < |s| ==> !IsAsciiUpper(r[i])
    ensures forall i :: 0 <= i < |s| && !IsAsciiUpper(s[i]) ==> r[i] == s[i]
    ensures forall i :: 0 <= i < |s| && IsAsciiUpper(s[i]) ==> r[i] as int == s[i] as int + 32
  {
    if s == [] then [] else [DowncaseChar(s[0])] + Downcase(s[1..])
  }

  /** Lower-casing twice is lower-casing once. */
  lemma DowncaseIdempotent(s: string)
    ensures Downcase(Downcase(s)) == Downcase(s)
  {
    var d := Downcase(s);
    assert forall i :: 0 <= i < |d| ==> Downcase(d)[i] == d[i];
  }

  /** Lower-casing touches letters only, so it keeps a string blank or non-blank. */
  lemma DowncasePreservesBlank(s: string)
    ensures IsBlank(Downcase(s)) <==> IsBlank(s)
  {
    var d := Downcase(s);
    assert forall i :: 0 <= i < |s| ==> (IsSpace(d[i]) <==> IsSpace(s[i]));
  }

  predicate StartsWith(s: string, p: string) {
    |p| <= |s| && s[..|p|] == p
  }

  predicate EndsWith(s: string, p: string) {
    |p| <= |s| && s[|s| - |p|..] == p
  }

  /** `String#delete_prefix`: removes one leading occurrence of `p`, if there is one. */
  function DeletePrefix(s: string, p: string): (r: string)
    ensures StartsWith(s, p) ==> s == p + r
    ensures !StartsWith(s, p) ==> r == s
  {
    if StartsWith(s, p) then s[|p|..] else s
  }

  /** `delete_prefix` undoes prepending the same prefix. */
  lemma DeletePrefixOfPrepended(p: string, x: string)
    ensures DeletePrefix(p + x, p) == x
  {
    assert (p + x)[..|p|] == p;
  }

  /** `sep` starts at position `i` of `s`. */
  predicate OccursAt(s: string, sep: string, i: int) {
    0 <= i && i + |sep| <= |s| && s[i..i + |sep|] == sep
  }

  predicate Contains(s: string, sep: string) {
    exists i :: 0 <= i <= |s| && OccursAt(s, sep, i)
  }

  /**
   * Splitting on a literal, non-empty separator, scanning left to right and
   * cutting at every leftmost non-overlapping occurrence; keeps every part,
   * including empty ones, so `n` cuts give `n + 1` parts.
   */
  function SplitAll(s: string, sep: string): (parts: seq<string>)
    requires |sep| > 0
    ensures |parts| >= 1
    decreases |s|
  {
    if StartsWith(s, sep) then
      [""] + SplitAll(s[|sep|..], sep)
    else if s == [] then
      [""]
    else
      var rest := SplitAll(s[1..], sep);
      [[s[0]] + rest[0]] + rest[1..]
  }

  /** Ruby's `split` with a limit of zero drops the trailing empty parts. */
  function DropTrailingEmpty(parts: seq<string>): (r: seq<string>)
    ensures |r| <= |parts| && r == parts[..|r|]
    ensures |r| > 0 ==> r[|r| - 1] != ""
    ensures forall i :: |r| <= i < |parts| ==> parts[i] == ""
  {
    if |parts| > 0 && parts[|parts| - 1] == "" then DropTrailingEmpty(parts[..|parts| - 1]) else parts
  }

  /** `String#split(sep)` for a literal separator of at least one character. */
  function RubySplit(s: string, sep: string): (parts: seq<string>)
    requires |sep| > 0
    ensures |parts| <= |SplitAll(s, sep)| && parts == SplitAll(s, sep)[..|parts|]
    ensures |parts| > 0 ==> parts[|parts| - 1] != ""
    ensures forall i :: |parts| <= i < |SplitAll(s, sep)| ==> SplitAll(s, sep)[i] == ""
  {
    DropTrailingEmpty(SplitAll(s, sep))
  }

  /** `Array#join(sep)`. */
  function Join(parts: seq<string>, sep: string): string {
    if |parts| == 0 then ""
    else if |parts| == 1 then parts[0]
    else parts[0] + sep + Join(parts[1..], sep)
  }

  /** Joining one more part appends the separator and that part. */
  lemma {:induction false} JoinSnoc(parts: seq<string>, x: string, sep: string)
    requires |parts| > 0
    ensures Join(parts + [x], sep) == Join(parts, sep) + sep + x
    decreases |parts|
  {
    if |parts| == 1 {
      assert Join(parts + [x], sep) == parts[0] + sep + Join([x], sep);
    } else {
      assert (parts + [x])[1..] == parts[1..] + [x];
      JoinSnoc(parts[1..], x, sep);
    }
  }

  lemma JoinHead(c: char, rest: seq<string>, sep: string)
    requires |rest| >= 1
    ensures Join([[c] + rest[0]] + rest[1..], sep) == [c] + Join(rest, sep)
  {
    var parts := [[c] + rest[0]] + rest[1..];
    if |rest| > 1 {
      assert parts[1..] == rest[1..];
    }
  }

  /** Joining the parts of a split with the same separator gives back the input. */
  lemma {:induction false} JoinSplitAll(s: string, sep: string)
    requires |sep| > 0
    ensures Join(SplitAll(s, sep), sep) == s
    decreases |s|
  {
    if StartsWith(s, sep) {
      var tail := s[|sep|..];
      var rest := SplitAll(tail, sep);
      calc {
        Join(SplitAll(s, sep), sep);
        == { assert SplitAll(s, sep) == [""] + rest; }
        Join([""] + rest, sep);
        == { assert ([""] + rest)[1..] == rest; }
        "" + sep + Join(rest, sep);
        == { JoinSplitAll(tail, sep); }
        sep + tail;
        == { assert s == s[..|sep|] + s[|sep|..]; }
        s;
      }
    } else if s != [] {
      var rest := SplitAll(s[1..], sep);
      calc {
        Join(SplitAll(s, sep), sep);
        == { assert SplitAll(s, sep) == [[s[0]] + rest[0]] + rest[1..]; }
        Join([[s[0]] + rest[0]] + rest[1..], sep);
        == { JoinHead(s[0], rest, sep); }
        [s[0]] + Join(rest, sep);
        == { JoinSplitAll(s[1..], sep); }
        [s[0]] + s[1..];
        == 
        s;
      }
    }
  }

  /** An occurrence in the tail of a string is an occurrence in the string. */
  lemma ContainsTail(s: string, sep: string)
    requires |s| > 0
    ensures Contains(s[1..], sep) ==> Contains(s, sep)
  {
    if Contains(s[1..], sep) {
      var i :| 0 <= i <= |s[1..]| && OccursAt(s[1..], sep, i);
      assert 0 <= i;
      assert OccursAt(s, sep, i + 1);
    }
  }

  /** A string without the separator splits into itself alone. */
  lemma {:induction false} SplitAllWithoutSeparator(s: string, sep: string)
    requires |sep| > 0
    requires !Contains(s, sep)
    ensures SplitAll(s, sep) == [s]
    decreases |s|
  {
    if StartsWith(s, sep) {
      assert OccursAt(s, sep, 0);
    } else if s != [] {
      ContainsTail(s, sep);
      SplitAllWithoutSeparator(s[1..], sep);
      assert [s[0]] + s[1..] == s;
    }
  }

  /** An occurrence in the tail of a string is an occurrence one position later in the string. */
  lemma OccursShift(s: string, sep: string, i: int)
    requires |s| > 0 && 0 <= i
    ensures OccursAt(s[1..], sep, i) <==> OccursAt(s, sep, i + 1)
  {
    if i + 1 + |sep| <= |s| {
      assert s[1..][i..i + |sep|] == s[i + 1..i + 1 + |sep|];
    }
  }

  /**
   * When the separator does not start inside `k`, splitting `k + sep + t`
   * yields `k` followed by the parts of `t`.
   */
  lemma {:induction false} SplitAllPlainPrefix(k: string, sep: string, t: string)
    requires |sep| > 0
    requires forall i :: 0 <= i < |k| ==> !OccursAt(k + sep + t, sep, i)
    ensures SplitAll(k + sep + t, sep) == [k] + SplitAll(t, sep)
    decreases |k|
  {
    var s := k + sep + t;
    if k == [] {
      assert s == sep + t;
      assert s[..|sep|] == sep;
      assert s[|sep|..] == t;
    } else {
      assert !OccursAt(s, sep, 0);
      var tail := s[1..];
      assert tail == k[1..] + sep + t;
      forall i | 0 <= i < |k[1..]| ensures !OccursAt(k[1..] + sep + t, sep, i) {
        OccursShift(s, sep, i);
      }
      SplitAllPlainPrefix(k[1..], sep, t);
      var rest := SplitAll(tail, sep);
      assert rest == [k[1..]] + SplitAll(t, sep);
      assert SplitAll(s, sep) == [[s[0]] + rest[0]] + rest[1..];
      assert [s[0]] + k[1..] == k;
    }
  }

  /** The last part of a split is empty only for an empty input or one ending in the separator. */
  lemma {:induction false} SplitAllLastEmpty(s: string, sep: string)
    requires |sep| > 0
    ensures var parts := SplitAll(s, sep);
      parts[|parts| - 1] == "" ==> s == [] || EndsWith(s, sep)
    decreases |s|
  {
    var parts := SplitAll(s, sep);
    if parts[|parts| - 1] == "" && s != [] {
      if StartsWith(s, sep) {
        var tail := s[|sep|..];
        var rest := SplitAll(tail, sep);
        assert rest[|rest| - 1] == "" by {
          assert parts == [""] + rest;
        }
        SplitAllLastEmpty(tail, sep);
        assert EndsWith(s, sep) by {
          if tail == [] {
            assert s == s[..|sep|];
          } else {
            assert s[|s| - |sep|..] == tail[|tail| - |sep|..];
          }
        }
      } else {
        var tail := s[1..];
        var rest := SplitAll(tail, sep);
        assert parts == [[s[0]] + rest[0]] + rest[1..];
        if |rest| > 1 {
          assert rest[|rest| - 1] == "" by {
            assert rest[|rest| - 1] == parts[|parts| - 1];
          }
          SplitAllLastEmpty(tail, sep);
          if tail != [] {
            assert EndsWith(s, sep) by {
              assert s[|s| - |sep|..] == tail[|tail| - |sep|..];
            }
          }
        }
      }
    }
  }

  /** Splitting the empty string yields no parts at all. */
  lemma RubySplitEmpty(sep: string)
    requires |sep| > 0
    ensures RubySplit("", sep) == []
  {
  }

  /** A non-empty string without the separator splits into itself alone. */
  lemma RubySplitWithoutSeparator(s: string, sep: string)
    requires |sep| > 0
    requires s != [] && !Contains(s, sep)
    ensures RubySplit(s, sep) == [s]
  {
    SplitAllWithoutSeparator(s, sep);
  }

  /**
   * Joining the parts of `split` gives back the input whenever no trailing
   * separator was dropped.
   */
  lemma RubySplitJoin(s: string, sep: string)
    requires |sep| > 0
    requires !EndsWith(s, sep)
    ensures Join(RubySplit(s, sep), sep) == s
  {
    SplitAllLastEmpty(s, sep);
    JoinSplitAll(s, sep);
  }
}

=== FILE: type_prep.dfy ===
/**
 * `KeProject::Jobs::TypePrep`: a parameterised job that filters out rows whose
 * value field reads `'undefined'` and writes them under a `type__` key.
 */
module TypePrep {
  import opened Rows
  import opened Steps
  import Text

  const TypePrefix := "type__"
  const OrigPrefix := "orig__"

  /**
   * The destination key: `"type__"` followed by the source key with one
   * leading `"orig__"` removed, if it has one.
   */
  function DestinationKey(source: string): (d: string)
    ensures Text.StartsWith(d, TypePrefix)
    ensures Text.StartsWith(source, OrigPrefix) ==> source == OrigPrefix + d[|TypePrefix|..]
    ensures !Text.StartsWith(source, OrigPrefix) ==> d[|TypePrefix|..] == source
  {
    TypePrefix + Text.DeletePrefix(source, OrigPrefix)
  }

  /** Removing `"type__"` from a destination gives back the source without `"orig__"`. */
  lemma StripTypePrefix(source: string)
    ensures Text.DeletePrefix(DestinationKey(source), TypePrefix) == Text.DeletePrefix(source, OrigPrefix)
  {
    Text.DeletePrefixOfPrepended(TypePrefix, Text.DeletePrefix(source, OrigPrefix));
  }

  /** Only one `orig__` is removed, and a key without it is kept whole. */
  lemma DestinationKeyExamples()
    ensures DestinationKey("foo") == "type__foo"
    ensures DestinationKey("orig__orig__x") == "type__orig__x"
    ensures DestinationKey("orig__objects") == "type__objects"
  {
    assert !Text.StartsWith("foo", OrigPrefix) by {
      assert "foo"[0] != OrigPrefix[0];
    }
    assert Text.StartsWith("orig__orig__x", OrigPrefix);
    assert Text.StartsWith("orig__objects", OrigPrefix);
  }

  /** `xforms(valfield)`: reject the rows whose value field equals `'undefined'`. */
  function Xforms(valfield: string): (chain: seq<Step>)
    ensures |chain| == 1 && chain[0].FieldEqualTo? && chain[0].action == Reject
    ensures chain[0].field == Sym(valfield) && chain[0].value == "undefined"
  {
    [FieldEqualTo(Reject, Sym(valfield), "undefined")]
  }

  /** `job(source:, valfield:)`: reads `source`, writes its `type__` key, with no lookup, and rejects `'undefined'`. */
  function Job(source: string, valfield: string): (job: Steps.Job)
    ensures job.files.sources == [source]
    ensures Text.StartsWith(job.files.destination, TypePrefix)
    ensures job.files.destination == DestinationKey(source)
    ensures job.files.lookups == []
    ensures job.chain == [FieldEqualTo(Reject, Sym(valfield), "undefined")]
  {
    Steps.Job(JobFiles([source], DestinationKey(source), []), Xforms(valfield))
  }
}

=== FILE: util.dfy ===
/**
 * `KeProject::Util.backup_working_files`: every child of the working directory
 * is moved into the backup directory under a `YY-MM-DD_HH-MM_` prefix. The
 * clock is a parameter and the data directory is a map from names to nodes.
 */
module Util {
  import opened Wrappers
  import Text

  /** The fields of `Time.now` that the timestamp reads, plus the seconds it ignores. */
  datatype Clock = Clock(year: int, month: int, day: int, hour: int, minute: int, second: int)

  predicate ValidClock(c: Clock) {
    && 0 <= c.year
    && 1 <= c.month <= 12
    && 1 <= c.day <= 31
    && 0 <= c.hour <= 23
    && 0 <= c.minute <= 59
    && 0 <= c.second <= 60
  }

  predicate IsDigit(ch: char) {
    '0' <= ch <= '9'
  }

  function Digit(d: int): (ch: char)
    requires 0 <= d <= 9
    ensures IsDigit(ch) && ch as int - '0' as int == d
  {
    ('0' as int + d) as char
  }

  /** A zero-padded two-digit field, as `%y`, `%m`, `%d`, `%H` and `%M` write it. */
  function TwoDigits(n: int): (s: string)
    requires 0 <= n <= 99
    ensures |s| == 2 && IsDigit(s[0]) && IsDigit(s[1])
    ensures (s[0] as int - '0' as int) * 10 + (s[1] as int - '0' as int) == n
  {
    [Digit(n / 10), Digit(n % 10)]
  }

  /** `Time.now.strftime("%y-%m-%d_%H-%M")`: `%y` is the year modulo 100. */
  function Timestamp(c: Clock): (t: string)
    requires ValidClock(c)
    ensures |t| == 14
    ensures t[2] == '-' && t[5] == '-' && t[8] == '_' && t[11] == '-'
    ensures forall i :: 0 <= i < 14 && i !in {2, 5, 8, 11} ==> IsDigit(t[i])
  {
    TwoDigits(c.year % 100) + "-" + TwoDigits(c.month) + "-" + TwoDigits(c.day) + "_"
      + TwoDigits(c.hour) + "-" + TwoDigits(c.minute)
  }

  /** The minute a timestamp names: two-digit year, month, day, hour and minute. */
  datatype Minute = Minute(yy: int, month: int, day: int, hour: int, minute: int)

  function TwoDigitValue(a: char, b: char): int {
    (a as int - '0' as int) * 10 + (b as int - '0' as int)
  }

  /**
   * Reading a timestamp back: exactly the strings of `Timestamp`'s shape, 14
   * characters with separators at 2, 5, 8 and 11 and digits elsewhere, are read,
   * and each field reads as a two-digit number.
   */
  function ParseTimestamp(t: string): (m: Option<Minute>)
    ensures m.Some? <==>
      && |t| == 14 && t[2] == '-' && t[5] == '-' && t[8] == '_' && t[11] == '-'
      && forall i :: 0 <= i < 14 && i !in {2, 5, 8, 11} ==> IsDigit(t[i])
    ensures m.Some? ==>
      && 0 <= m.value.yy <= 99 && 0 <= m.value.month <= 99 && 0 <= m.value.day <= 99
      && 0 <= m.value.hour <= 99 && 0 <= m.value.minute <= 99
  {
    if |t| == 14 && t[2] == '-' && t[5] == '-' && t[8] == '_' && t[11] == '-'
       && forall i :: 0 <= i < 14 && i !in {2, 5, 8, 11} ==> IsDigit(t[i])
    then Some(Minute(TwoDigitValue(t[0], t[1]), TwoDigitValue(t[3], t[4]), TwoDigitValue(t[6], t[7]),
                     TwoDigitValue(t[9], t[10]), TwoDigitValue(t[12], t[13])))
    else None
  }

  /** The minute a clock reading falls in. */
  function MinuteOf(c: Clock): Minute {
    Minute(c.year % 100, c.month, c.day, c.hour, c.minute)
  }

  /** A timestamp reads back as the minute it was written for. */
  lemma TimestampRoundTrip(c: Clock)
    requires ValidClock(c)
    ensures ParseTimestamp(Timestamp(c)) == Some(MinuteOf(c))
  {
    var t := Timestamp(c);
    var y, mo, d, h, mi := TwoDigits(c.year % 100), TwoDigits(c.month), TwoDigits(c.day), TwoDigits(c.hour), TwoDigits(c.minute);
    assert t == y + "-" + mo + "-" + d + "_" + h + "-" + mi;
    assert t[0] == y[0] && t[1] == y[1] && t[3] == mo[0] && t[4] == mo[1] && t[6] == d[0] && t[7] == d[1];
    assert t[9] == h[0] && t[10] == h[1] && t[12] == mi[0] && t[13] == mi[1];
  }

  /** The granularity is one minute: clocks in the same minute give the same timestamp, and clocks in different minutes different ones. */
  lemma TimestampMinuteGranularity(c1: Clock, c2: Clock)
    requires ValidClock(c1) && ValidClock(c2)
    ensures Timestamp(c1) == Timestamp(c2) <==> MinuteOf(c1) == MinuteOf(c2)
  {
    TimestampRoundTrip(c1);
    TimestampRoundTrip(c2);
  }

  /** A directory entry: a file with its content, or a directory with its children. */
  datatype Node = File(content: string) | Directory(children: map<string, Node>)

  /** Why the backup stopped. */
  datatype FsError =
    | BackupNotADirectory        // `Dir.mkdir` on a name a file already holds
    | NoWorkingDirectory         // `FileUtils.cd` into a missing working directory, or a file
    | TargetIsDirectory(file: string)  // `FileUtils.mv` refuses (EEXIST): the path it moves to is a directory
    | DirectoryOntoFile(file: string)  // `File.rename` refuses (ENOTDIR): a directory onto a file

  const Working := "working"
  const Backup := "backup"

  /** `"#{timestamp}_#{filename}"`. */
  function BackupName(stamp: string, name: string): (n: string)
    ensures Text.StartsWith(n, stamp + "_")
    ensures n[|stamp| + 1..] == name
  {
    stamp + "_" + name
  }

  /** Different files get different backup names, and the name can be taken back apart. */
  lemma BackupNameInjective(stamp: string, f: string, g: string)
    ensures BackupName(stamp, f) == BackupName(stamp, g) <==> f == g
    ensures Text.DeletePrefix(BackupName(stamp, f), stamp + "_") == f
  {
    Text.DeletePrefixOfPrepended(stamp + "_", f);
    Text.DeletePrefixOfPrepended(stamp + "_", g);
    assert BackupName(stamp, f) == (stamp + "_") + f;
    assert BackupName(stamp, g) == (stamp + "_") + g;
  }

  /** What a directory holds under a name, if anything. */
  function EntryAt(m: map<string, Node>, name: string): (e: Option<Node>)
    ensures e.Some? <==> name in m
    ensures e.Some? ==> e.value == m[name]
  {
    if name in m then Some(m[name]) else None
  }

  /**
   * Whether `FileUtils.mv(f, "backup/<name>")` raises, given what `<name>`
   * holds and the node `f` is. A directory at `<name>` makes the move go
   * inside it, to `<name>/<f>`, which is refused when a directory is there
   * and, for a directory `f`, when a file is there. Without a directory at
   * `<name>`, only a directory `f` onto a file is refused.
   */
  predicate MoveFails(at: Option<Node>, f: string, node: Node): (fails: bool)
    ensures at.None? ==> !fails
    ensures fails ==> node.Directory? || (at.value.Directory? && f in at.value.children && at.value.children[f].Directory?)
    ensures node.File? && at.Some? && at.value.File? ==> !fails
  {
    match at
    case Some(Directory(inner)) => f in inner && (inner[f].Directory? || node.Directory?)
    case Some(File(_)) => node.Directory?
    case None => false
  }

  /** The error a refused move raises. */
  function MoveError(at: Option<Node>, f: string, node: Node): (e: FsError)
    requires MoveFails(at, f, node)
    ensures e == TargetIsDirectory(f) || e == DirectoryOntoFile(f)
    ensures e == TargetIsDirectory(f) <==> at.value.Directory? && at.value.children[f].Directory?
  {
    match at
    case Some(Directory(inner)) => if inner[f].Directory? then TargetIsDirectory(f) else DirectoryOntoFile(f)
    case Some(File(_)) => DirectoryOntoFile(f)
  }

  /**
   * What `<name>` holds after a move that does not raise: the moved node, which
   * replaces a file or fills an empty name, or the directory already there
   * with the node added under `f`.
   */
  function Moved(at: Option<Node>, f: string, node: Node): (n: Node)
    requires !MoveFails(at, f, node)
    ensures at.Some? && at.value.Directory? ==> n == Directory(at.value.children[f := node])
    ensures !(at.Some? && at.value.Directory?) ==> n == node
    ensures at.Some? && at.value.File? ==> node.File?
  {
    match at
    case Some(Directory(inner)) => Directory(inner[f := node])
    case _ => node
  }

  /** Whether the data directory lets the backup start: `working` is a directory and `backup`, if present, is one. */
  predicate CanBackUp(data: map<string, Node>) {
    && Working in data && data[Working].Directory?
    && (Backup in data ==> data[Backup].Directory?)
  }

  /** The backup directory's children before the backup; none when it does not exist yet. */
  function OldBackups(data: map<string, Node>): map<string, Node> {
    if Backup in data && data[Backup].Directory? then data[Backup].children else map[]
  }

  /** Whether the backup runs to the end: it can start, and no single move raises. */
  predicate BackupSucceeds(data: map<string, Node>, stamp: string) {
    && CanBackUp(data)
    && forall f :: f in data[Working].children ==>
         !MoveFails(EntryAt(OldBackups(data), BackupName(stamp, f)), f, data[Working].children[f])
  }

  /** A backup name starts with the clock's timestamp, which reads back as the clock's minute, and ends with the file's name. */
  lemma BackupNameCarriesMinute(now: Clock, f: string)
    requires ValidClock(now)
    ensures var n := BackupName(Timestamp(now), f);
      && |n| == 15 + |f| && n[..14] == Timestamp(now) && n[14] == '_' && n[15..] == f
      && ParseTimestamp(n[..14]) == Some(MinuteOf(now))
  {
    var n := BackupName(Timestamp(now), f);
    assert n == Timestamp(now) + "_" + f;
    assert n[..14] == Timestamp(now);
    TimestampRoundTrip(now);
  }

  /**
   * The body of `backup_working_files` for a given stamp. It raises exactly
   * when `backup` is a file, `working` is not a directory, or the move of some
   * child raises. Otherwise `working` is empty; each of its former children
   * has been moved to its stamped name as `Moved` describes; any other
   * backup entry is kept; nothing outside `working` and `backup` changes.
   * `Dir.each_child`'s order does not matter, because the new names are
   * pairwise distinct, so each move sees the backup directory as it was.
   */
  method MoveWorkingFiles(data: map<string, Node>, stamp: string) returns (r: Result<map<string, Node>, FsError>)
    ensures r.Failure? <==> !BackupSucceeds(data, stamp)
    ensures r.Failure? && CanBackUp(data) ==>
      exists f :: f in data[Working].children
        && MoveFails(EntryAt(OldBackups(data), BackupName(stamp, f)), f, data[Working].children[f])
        && r.error == MoveError(EntryAt(OldBackups(data), BackupName(stamp, f)), f, data[Working].children[f])
    ensures r.Success? ==>
      var out := r.value;
      && out.Keys == data.Keys + {Backup}
      && out[Working] == Directory(map[])
      && out[Backup].Directory?
      && (forall k :: k in data && k != Working && k != Backup ==> out[k] == data[k])
    ensures r.Success? ==>
      var working := data[Working].children;
      var moved := r.value[Backup].children;
      forall f :: f in working ==>
        && BackupName(stamp, f) in moved
        && moved[BackupName(stamp, f)] == Moved(EntryAt(OldBackups(data), BackupName(stamp, f)), f, working[f])
    ensures r.Success? ==>
      var old_ := OldBackups(data);
      var moved := r.value[Backup].children;
      forall n :: n in old_ && (forall f :: f in data[Working].children ==> n != BackupName(stamp, f)) ==>
        n in moved && moved[n] == old_[n]
    ensures r.Success? ==>
      var moved := r.value[Backup].children;
      forall n :: n in moved ==>
        n in OldBackups(data) || exists f :: f in data[Working].children && n == BackupName(stamp, f)
  {
    if Backup in data && !data[Backup].Directory? {
      return Failure(BackupNotADirectory);
    }
    if Working !in data || !data[Working].Directory? {
      return Failure(NoWorkingDirectory);
    }
    var existing := OldBackups(data);
    var working := data[Working].children;
    var remaining := working.Keys;
    var moved := existing;
    while remaining != {}
      invariant remaining <= working.Keys
      invariant forall g :: g in working && g !in remaining ==>
        && !MoveFails(EntryAt(existing, BackupName(stamp, g)), g, working[g])
        && BackupName(stamp, g) in moved
        && moved[BackupName(stamp, g)] == Moved(EntryAt(existing, BackupName(stamp, g)), g, working[g])
      invariant forall n :: n in existing && (forall g :: g in working && g !in remaining ==> n != BackupName(stamp, g)) ==>
        n in moved && moved[n] == existing[n]
      invariant forall n :: n in moved ==>
        n in existing || exists g :: g in working && g !in remaining && n == BackupName(stamp, g)
      decreases remaining
    {
      var f :| f in remaining;
      var name := BackupName(stamp, f);
      forall g | g in working && g !in remaining
        ensures BackupName(stamp, g) != name
      {
        BackupNameInjective(stamp, f, g);
      }
      // No earlier move touched `name`, so the move sees it as it was.
      assert EntryAt(moved, name) == EntryAt(existing, name);
      if MoveFails(EntryAt(moved, name), f, working[f]) {
        return Failure(MoveError(EntryAt(moved, name), f, working[f]));
      }
      moved := moved[name := Moved(EntryAt(moved, name), f, working[f])];
      remaining := remaining - {f};
    }
    r := Success(data[Working := Directory(map[])][Backup := Directory(moved)]);
  }

  /**
   * `backup_working_files`: the stamp is `Time.now.strftime("%y-%m-%d_%H-%M")`
   * for the clock reading `now`. Each child of `working` ends up under a name
   * that starts with that stamp, which reads back as the minute of `now`.
   */
  method BackupWorkingFiles(data: map<string, Node>, now: Clock) returns (r: Result<map<string, Node>, FsError>)
    requires ValidClock(now)
    ensures r.Failure? <==> !BackupSucceeds(data, Timestamp(now))
    ensures r.Failure? && CanBackUp(data) ==>
      var stamp := Timestamp(now);
      exists f :: f in data[Working].children
        && MoveFails(EntryAt(OldBackups(data), BackupName(stamp, f)), f, data[Working].children[f])
        && r.error == MoveError(EntryAt(OldBackups(data), BackupName(stamp, f)), f, data[Working].children[f])
    ensures r.Success? ==>
      var out := r.value;
      && out.Keys == data.Keys + {Backup}
      && out[Working] == Directory(map[])
      && out[Backup].Directory?
      && (forall k :: k in data && k != Working && k != Backup ==> out[k] == data[k])
    ensures r.Success? ==>
      var stamp := Timestamp(now);
      var working := data[Working].children;
      var moved := r.value[Backup].children;
      forall f :: f in working ==>
        && BackupName(stamp, f) in moved
        && moved[BackupName(stamp, f)] == Moved(EntryAt(OldBackups(data), BackupName(stamp, f)), f, working[f])
        && ParseTimestamp(BackupName(stamp, f)[..14]) == Some(MinuteOf(now))
    ensures r.Success? ==>
      var old_ := OldBackups(data);
      var moved := r.value[Backup].children;
      forall n :: n in old_ && (forall f :: f in data[Working].children ==> n != BackupName(Timestamp(now), f)) ==>
        n in moved && moved[n] == old_[n]
    ensures r.Success? ==>
      var moved := r.value[Backup].children;
      forall n :: n in moved ==>
        n in OldBackups(data) || exists f :: f in data[Working].children && n == BackupName(Timestamp(now), f)
  {
    var stamp := Timestamp(now);
    r := MoveWorkingFiles(data, stamp);
    if r.Success? {
      forall f | f in data[Working].children
        ensures ParseTimestamp(BackupName(stamp, f)[..14]) == Some(MinuteOf(now))
      {
        BackupNameCarriesMinute(now, f);
      }
    }
  }
}

/**
 * Loading the project: with `backup_mode` `:job` the working files are backed
 * up first, then the registry is populated, transformed and frozen.
 */
module Boot {
  import opened Wrappers
  import Util
  import Registry
  import RegistryData

  datatype BackupMode = JobMode | NoneMode

  datatype Event = WorkingFilesBackedUp | RegistryPopulated

  /**
   * The last two statements of the project file. A backup that raises stops
   * the load before the registry is populated (`registry` is then `None`).
   */
  method Load(mode: BackupMode, data: map<string, Util.Node>, now: Util.Clock)
    returns (events: seq<Event>, out: map<string, Util.Node>, registry: Option<Result<Registry.Registry, Registry.RegistryError>>)
    requires Util.ValidClock(now)
    ensures (WorkingFilesBackedUp in events) <==> mode == JobMode && Util.BackupSucceeds(data, Util.Timestamp(now))
    ensures RegistryPopulated in events <==> mode == NoneMode || Util.BackupSucceeds(data, Util.Timestamp(now))
    ensures forall i, j :: 0 <= i < |events| && 0 <= j < |events| && events[i] == WorkingFilesBackedUp && events[j] == RegistryPopulated ==> i < j
    ensures mode == NoneMode ==> out == data
    ensures registry.Some? <==> RegistryPopulated in events
    ensures registry.Some? ==> registry.value == RegistryData.Register()
    ensures mode == JobMode && Util.BackupSucceeds(data, Util.Timestamp(now)) ==>
      && Util.Working in out && out[Util.Working] == Util.Directory(map[])
      && Util.Backup in out && out[Util.Backup].Directory?
      && forall f :: f in data[Util.Working].children ==> Util.BackupName(Util.Timestamp(now), f) in out[Util.Backup].children
  {
    events := [];
    out := data;
    if mode == JobMode {
      var r := Util.BackupWorkingFiles(data, now);
      if r.Failure? {
        registry := None;
        return;
      }
      out := r.value;
      events := events + [WorkingFilesBackedUp];
    }
    registry := Some(RegistryData.Register());
    events := events + [RegistryPopulated];
  }
}

=== FILE: wrappers.dfy ===
/** `Option` for Ruby's `nil`, and a failure-compatible `Result` for raised exceptions. */
module Wrappers {

  /** A value that may be absent; `None` stands for Ruby's `nil`. */
  datatype Option<+T> = None | Some(value: T) {

    function GetOr(default: T): T {
      match this
      case Some(v) => v
      case None => default
    }
  }

  /** The outcome of an operation that can raise: `Failure` stands for the Ruby exception. */
  datatype Result<+R, +E> = Success(value: R) | Failure(error: E) {

    predicate IsFailure() {
      Failure?
    }

    function PropagateFailure<U>(): Result<U, E>
      requires Failure?
    {
      Failure(error)
    }

    function Extract(): R
      requires Success?
    {
      value
    }
  }
}
